=== FILE: README.md ===
# Binance order bot: validation, execution and routing core

This project models the order pipeline of a Binance USDⓈ-M futures trading bot
and proves properties of the model in Dafny. The pipeline takes an order
request as a dictionary and runs it through three stages:

- `validate` normalises the request. It settles the order type, fills
  missing required fields from their synonyms, trims and upper-cases the
  symbol and side, and coerces the quantity, price and stop price to
  positive numbers. It then rounds them onto the exchange's LOT_SIZE and
  PRICE_FILTER grids, after checking their minimums. Every other key is
  passed through unchanged.
- Five executors turn a normalised request into calls of
  `client.futures_create_order`. Market, limit and stop-limit orders make
  one call each. OCO places a take-profit leg and then a stop-market leg on
  the exit side. TWAP places equal MARKET chunks with a pause between
  consecutive chunks.
- The order graph validates and merges the request, routes on the
  lower-cased order type through a five-entry table, and runs the matching
  executor.

The modules follow the source files:

| module | file | models |
|---|---|---|
| `Results`, `Errors` | `results.dfy`, `errors.dfy` | `Option`/`Result`, and the exceptions the pipeline raises, one constructor per cause |
| `Values`, `Text`, `Decimal` | `values.dfy`, `text.dfy`, `decimal.dfy` | Python values, truthiness, `or`, `dict.get`, `str.strip`/`upper`/`lower` (ASCII), `float()`/`int()` |
| `Filters` | `filters.dfy` | `_apply_lot_size_filters` and `_apply_price_filters` |
| `Validators` | `validators.dfy` | `_to_float`, `_normalize_side`, `_normalize_symbol`, `_required_fields_for_order_type` and `validate` |
| `Exchange` | `exchange.dfy` | order payloads, exchange replies, and the trace of calls and pauses |
| `MarketOrders`, `LimitOrders`, `StopLimit` | `market_orders.dfy`, `limit_orders.dfy`, `stop_limit.dfy` | the three single-order executors |
| `Oco`, `Twap` | `oco.dfy`, `twap.dfy` | the two multi-call strategies |
| `Graph` | `graph.dfy` | the nodes and the conditional-edge table of `build_bot_graph` |

## Modelling choices

- **The exchange is an input.** `Gateway = nat -> Reply` gives the reply to
  the k-th order call of one execution, counting from zero. A reply is an
  accepted response or a rejection with its reason. Every execution returns
  a `Run`. A `Run` holds the result, or the error that was raised, together
  with the trace of `Submit(payload)` and `Wait(seconds)` events it produced.
  Properties about "what was sent, in which order, and when the sending
  stopped" are stated on that trace.
- **The client is a `Value`.** The limit, stop-limit, OCO and TWAP
  executors raise before any call when it is `None` (`ClientUnavailable`).
  The market executor has no such guard. There, any value that is not the
  client object fails at the first call (`NotAClient`) and nothing reaches
  the exchange.
- **Numbers are exact reals.** Python's `round` is modelled as round half to
  even. `int()` of a float truncates toward zero.
- **Number texts have their own trim.** `float()` and `int()` of a text skip
  surrounding whitespace, but not the separator characters U+001C to U+001F,
  which `str.strip()` does remove. `Decimal.TrimNumber` is this narrower
  trim, and `Text.Strip` stays the one used for symbols, sides and order
  types.
- **The symbol's exchange filters are an input** to `Validators.Validate`.
  A filter list of `None` means that no exchange metadata was found.
- **Behaviour of the code worth knowing.**
  - `minQty` and `minPrice` are checked on the value **before** it is
    rounded to the step or tick. Rounding can therefore take a quantity
    below `minQty` or to zero, and a price to zero
    (`Filters.QuantityCanRoundBelowMinimum`, `Filters.QuantityCanRoundToZero`,
    `Filters.PriceCanRoundToZero`).
  - OCO and TWAP failures are re-raised as they came, with no partial
    result attached. The model's trace still records what was sent before
    the failure.
  - `validate` does not reject an unknown order type: it gets the base
    required fields (symbol, side, quantity). Only the graph's table then
    fails to route it (`Graph.GridValidatesButHasNoRoute`).
- **The TWAP node.** `graph.py` imports `execute_twap_order`, which
  `src/advanced/twap.py` does not define. The model runs `execute_twap` on
  the node's symbol, side and quantity. Since the node passes no tuning
  fields, the defaults apply: five chunks, sixty seconds apart.
  `execute_twap` reads the client from its module. The model passes it as a
  parameter, and the node passes `state["client"]`.
- **A negative TWAP delay.** `time.sleep` raises on a negative delay, inside
  the placement `try`. The model therefore stops with `NegativeDelay` after
  the first chunk has been submitted.

## Model

| member | source | states |
|---|---|---|
| Text.Strip | src/validators.py:25 | `str.strip()`: the result is the infix of the input left between a whitespace-only prefix and a whitespace-only suffix, has no surrounding whitespace itself, and is empty exactly when the input is all whitespace |
| Text.Upper | src/validators.py:25 | `str.upper()`: same length, every letter upper-case, each character mapped on its own |
| Text.Lower | src/validators.py:126 | `str.lower()`: same length, every letter lower-case, each character mapped on its own |
| Text.StripUpperIdempotent | src/validators.py:34 | trimming and upper-casing a second time changes nothing |
| Text.StripLowerIdempotent | src/validators.py:126 | trimming and lower-casing a second time changes nothing |
| Text.NormalLowerFixed | src/validators.py:101 | a trimmed lower-case text is its own normal form for the order-type lookup |
| Text.NormalUpperFixed | src/validators.py:25 | a trimmed upper-case text is its own normal form for side and symbol |
| Decimal.ParseFloatNatText | src/validators.py:15-19 | `float(str(n)) == n` for every natural `n` |
| Decimal.ParseIntNatText | src/advanced/twap.py:26 | `int(str(n)) == n` for every natural `n` |
| Decimal.IntTextIsFloatText | src/advanced/twap.py:26-27 | every text `int()` accepts is accepted by `float()` with the same value |
| Decimal.TrimNumber | src/validators.py:15-19 | the whitespace `float()` and `int()` skip: the result is the infix of the input between a prefix and a suffix of such whitespace, and has none at either end |
| Decimal.WhitespaceSkipped | src/validators.py:15-19 | `float(" 5\n") == 5.0`: surrounding blanks and newlines are skipped |
| Decimal.SeparatorNotSkipped | src/validators.py:15-19 | `float("\x1c5")` is an error: a leading separator character is not skipped |
| Decimal.TrailingSeparatorNotSkipped | src/advanced/twap.py:26 | `int("5\x1f")` is an error: a trailing separator character is not skipped |
| Values.Trunc | src/advanced/twap.py:26 | `int()` of a float truncates toward zero: the result lies within one of the input, on the zero side |
| Values.OrPicksTruthy | src/validators.py:125 | `a or b` is truthy iff one operand is, and is always one of the two operands |
| Values.ConversionsFixNumbers | src/validators.py:15-19 | a number is its own `float()`, and an integral number its own `int()` |
| Filters.FirstLotSize | src/validators.py:62-66 | the LOT_SIZE entry the loop stops at: a LOT_SIZE filter of the list with no LOT_SIZE filter before it; none exactly when the list has no LOT_SIZE filter |
| Filters.FirstPriceFilter | src/validators.py:86-92 | the same for the first PRICE_FILTER entry |
| Filters.LotRule | src/validators.py:58-66 | a lot rule exists iff the filters are present and contain a LOT_SIZE filter; it is the first such filter's `minQty` and `stepSize`, each 0 when absent |
| Filters.PriceRule | src/validators.py:83-92 | a price rule exists iff the filters are present and contain a PRICE_FILTER; it is the first such filter's `minPrice` and `tickSize`, each 0 when absent |
| Filters.FloorToStep | src/validators.py:71-74 | rounding down to the step: the result is on the step grid, at most the input and more than the input minus one step |
| Filters.RoundHalfEven | src/validators.py:96 | Python's `round`: the nearest integer, ties going to the even one |
| Filters.RoundToTick | src/validators.py:94-96 | rounding to the tick: the result is on the tick grid and within half a tick of the input |
| Filters.ApplyLotSize | src/validators.py:54-76 | without metadata the quantity is returned as is; it fails iff a LOT_SIZE minimum exists and exceeds the quantity; otherwise the result is the quantity rounded down onto the positive step grid, or the quantity itself when there is no positive step |
| Filters.ApplyPriceFilter | src/validators.py:79-97 | without metadata the price is returned as is; it fails iff a PRICE_FILTER minimum exists and exceeds the price; otherwise the result is on the positive tick grid within half a tick, or the price itself |
| Filters.GridFloorAboveMinimum | src/validators.py:68-74 | rounding down never crosses a minimum that lies on the step grid |
| Filters.GridRoundAboveMinimum | src/validators.py:90-96 | rounding to the tick never crosses a minimum that lies on the tick grid |
| Filters.FloorToStepFixes | src/validators.py:74 | a value already on the step grid is unchanged by rounding down |
| Filters.RoundToTickFixes | src/validators.py:96 | a value already on the tick grid is unchanged by rounding |
| Filters.LotSizeIdempotent | src/validators.py:54-76 | with minimums on the grid, an accepted positive quantity rounds to a positive one that a second pass leaves unchanged |
| Filters.PriceFilterIdempotent | src/validators.py:79-97 | the same for prices and the tick grid |
| Filters.QuantityCanRoundToZero | src/validators.py:68-75 | a quantity that passes the minimum check can round down to zero |
| Filters.QuantityCanRoundBelowMinimum | src/validators.py:68-75 | a quantity that passes the minimum check can round down below the minimum |
| Filters.PriceCanRoundToZero | src/validators.py:90-96 | a price that passes the minimum check can round to zero |
| Validators.Coerce | src/validators.py:15-19 | `_to_float` plus the `<= 0` rejection: succeeds iff the value converts to a positive number, which it returns; a non-number raises the "must be numeric" error |
| Validators.NormalizeSide | src/validators.py:22-28 | accepts exactly the texts that trim and upper-case to BUY or SELL, and returns that trimmed, upper-cased text; a falsy side is reported missing |
| Validators.SideOfText | src/validators.py:22-28 | any text that trims and upper-cases to BUY or SELL is accepted as that side |
| Validators.NormalizeSideIdempotent | src/validators.py:22-28 | a normalised side normalises to itself |
| Validators.NormalizeSymbol | src/validators.py:31-34 | accepts exactly the non-empty texts and returns the text trimmed and upper-cased, which is no longer than the input and empty iff the input was all whitespace; a falsy symbol is reported missing |
| Validators.SymbolOfText | src/validators.py:31-34 | every non-empty text is accepted as its trimmed, upper-cased self |
| Validators.NormalizeSymbolIdempotent | src/validators.py:31-34 | a symbol text with a non-blank character normalises to a non-empty symbol, which normalises to itself |
| Validators.BlankSymbolAccepted | src/validators.py:31-34 | a whitespace-only symbol passes the check and becomes the empty text, which is then rejected when read back |
| Validators.OrderKind | src/validators.py:125-126 | the order type is the first truthy of `order_type` and `type`, trimmed and lower-cased, or "market" when neither is truthy; a truthy non-text type fails |
| Validators.MarketIsNormal | src/validators.py:125-126 | the default "market" is its own normal form |
| Validators.RequiredFor | src/validators.py:102-110 | every order type requires symbol, side and quantity first; it requires price iff it is limit, stop_limit or oco, and stop_price iff it is stop_limit or oco; any other type needs only the base fields |
| Validators.RequiredFields | src/validators.py:100-110 | the lookup trims and lower-cases its argument, so a normalised order type looks up its own table row |
| Validators.FirstPresent | src/validators.py:146-150 | a key of the list that is present in the request; none exactly when no key of the list is present |
| Validators.FirstPresentIsFirst | src/validators.py:146-150 | the key chosen is the earliest present one: no key before it in the list is present, and whenever the i-th key is the earliest present one it is the one chosen |
| Validators.AvailableAfterCopy | src/validators.py:142-152 | copying a synonym into one required field changes no other field's availability |
| Validators.Resolve | src/validators.py:130-154 | synonym resolution succeeds iff every required field has its key or a synonym; afterwards every required field is present, original keys are untouched, and each added key holds its first present synonym's value; otherwise the error names a required field that has neither |
| Validators.ResolveReportsFirst | src/validators.py:142-154 | the missing-field error names the first required field, in table order, with neither its key nor a synonym: every field before it is available |
| Validators.ResolveComplete | src/validators.py:131-132 | a request holding every required field under its own key is left as it is |
| Validators.MissingFieldExactly | src/validators.py:130-154 | `validate` raises a missing-field error iff some required field of the order type has neither its key nor a synonym |
| Validators.FirstTruthy | src/validators.py:169 | `a or b or c`: truthy iff some key's value is, and then the earliest truthy value; otherwise the last key's value |
| Validators.FirstTruthyAgree | src/validators.py:169 | `a or b or c` depends only on the values under its keys |
| Validators.QuantityOf | src/validators.py:168-181 | with no quantity key it raises "Missing quantity"; otherwise a rejected coercion of the first truthy quantity value raises its error, and an accepted one yields the lot filter's result for it; an accepted quantity is non-negative, on the step grid, and stable under the lot filter when the metadata conforms |
| Validators.OptionalPrice | src/validators.py:184-207 | with no key present the price is absent; otherwise a rejected coercion raises its error, and an accepted one yields the price filter's result for it, or its error; a produced price is on the tick grid and stable under the price filter when the metadata conforms |
| Validators.Normalize | src/validators.py:156-219 | succeeds iff the symbol, side, quantity, price and stop-price stages all succeed; the output then holds exactly the values those stages computed (a price key only when a price was read), `reduce_only` exactly when the input has it, as the truthiness of the input's value, and every other key of the input passed through |
| Validators.Assembled | src/validators.py:209-219 | writing the normalised entries over the request yields that shape and adds no key besides the normalised ones |
| Validators.ExtendsResolved | src/validators.py:216-219 | keys added by synonym resolution are normalised keys, so the output extends the original request |
| Validators.Validate | src/validators.py:113-222 | succeeds iff the order type, synonym resolution and every normalisation stage of the resolved request succeed; the output holds the values those stages computed, `reduce_only` exactly when the resolved request has it, as that value's truthiness, the normalised order type and every field its type requires, and keeps every input key, with non-normalised keys unchanged; a missing-field error names a required field with neither key nor synonym |
| Validators.QuantityFailureRejects | src/validators.py:168-181 | a request with a `quantity` key whose quantity is not numeric, not positive or below the LOT_SIZE minimum is rejected |
| Validators.NormalizeSettled | src/validators.py:156-219 | normalising an already well-formed request with a non-empty symbol gives it back unchanged |
| Validators.ValidatedIsFixedPoint | src/validators.py:113-222 | a request already in validated shape, holding every field its order type requires, validates to itself (under conforming metadata, non-empty order type and symbol) |
| Validators.ValidateIdempotent | src/validators.py:113-222 | validating a validated request again gives the same request (under conforming metadata, non-empty order type and symbol) |
| Exchange.MarketOrder | src/market_orders.py:12-17 | the MARKET payload: symbol, side and quantity, with no price, stop price, time in force or client id |
| Exchange.Place | src/market_orders.py:23 | one order call: anything but the client fails before reaching the exchange; otherwise the payload is submitted once, an accepted reply is returned as it came, and a rejection is re-raised |
| MarketOrders.ExecuteMarket | src/market_orders.py:11-44 | with the client, exactly one MARKET payload is sent, and the result is the reply or its rejection; with anything else nothing is sent and it fails |
| MarketOrders.MarketSingleCall | src/market_orders.py:23 | only the first reply matters |
| LimitOrders.LimitOrder | src/limit_orders.py:14-21 | the LIMIT payload carries the price and the time in force, and no stop price or client id |
| LimitOrders.ExecuteLimit | src/limit_orders.py:5-35 | a `None` client raises before any call; with the client, one LIMIT payload (GTC unless given) is sent and the reply or its rejection is returned |
| LimitOrders.LimitDefaultsToGtc | src/limit_orders.py:5 | omitting the time in force is the same as asking for GTC |
| LimitOrders.LimitSingleCall | src/limit_orders.py:26 | only the first reply matters |
| StopLimit.StopLimitOrder | src/stop_limit.py:17-25 | the STOP payload uses the limit price as `price` and the stop price as `stopPrice`, good till cancelled |
| StopLimit.ExecuteStopLimit | src/stop_limit.py:11-39 | a `None` client raises before any call; with the client, one STOP payload is sent and the reply or its rejection is returned |
| StopLimit.StopLimitSingleCall | src/stop_limit.py:30 | only the first reply matters |
| Oco.ExitSide | src/advanced/oco.py:28 | the exit side is SELL iff the side is exactly "BUY", and is always BUY or SELL |
| Oco.GroupId | src/advanced/oco.py:26 | the group id is a prefix of the identifier text, of length twelve or the whole text if shorter |
| Oco.TakeProfitLeg | src/advanced/oco.py:34-43 | TAKE_PROFIT on the exit side, trigger and limit both at the target, GTC, client id "TP-" and the group id |
| Oco.StopLossLeg | src/advanced/oco.py:53-60 | STOP_MARKET on the exit side, trigger only, no time in force, client id "SL-" and the group id |
| Oco.ExecuteOco | src/advanced/oco.py:12-75 | a `None` client raises before any call; otherwise the take-profit leg is sent, and the stop-loss leg only after it was accepted; it succeeds iff both are accepted, returning the group id and both replies, and otherwise re-raises the first rejection |
| Oco.ExitSideFlips | src/advanced/oco.py:28 | for BUY and SELL the exit side is the other one, so exiting twice comes back |
| Oco.LowerCaseBuyExitsWithBuy | src/advanced/oco.py:28 | the comparison is case-sensitive: a lower-case "buy" exits with a BUY |
| Oco.LegsShareGroup | src/advanced/oco.py:34-60 | both legs go out on the same side, with client ids that differ in their prefix and share the group id |
| Oco.StopLossOnlyAfterTakeProfit | src/advanced/oco.py:44-65 | at most two calls, take-profit first and stop-market second, and a second call only after an accepted first one |
| Oco.OcoTwoCalls | src/advanced/oco.py:46-63 | only the first two replies matter |
| Twap.TwapPlan | src/advanced/twap.py:26-34 | the setup succeeds iff the intervals convert to a positive integer, the delay converts to a number, and the client is not `None`; it then yields exactly those two values; non-positive intervals raise their own error |
| Twap.TwapDefaults | src/advanced/twap.py:26-27 | with neither tuning field the plan is five chunks sixty seconds apart |
| Twap.PlaceChunks | src/advanced/twap.py:50-73 | a run with no stopping chunk submits the chunk n times with pauses in between and returns the n accepted replies in order; a run whose first stopping chunk is k has submitted exactly k+1 chunks and raises that chunk's error |
| Twap.ExecuteTwap | src/advanced/twap.py:8-73 | a failed setup places nothing; otherwise `total / intervals` is placed as a MARKET chunk with the placement loop's outcome |
| Twap.CompletesOrStops | src/advanced/twap.py:50-73 | every run either completes or has exactly one first stopping chunk, so the two outcomes of the loop cover all runs |
| Twap.PacedCounts | src/advanced/twap.py:51-66 | a run of m chunks submits m copies of the chunk, pauses m-1 times, and ends with a submission, so no pause follows the last chunk |
| Twap.ChunksSumToTotal | src/advanced/twap.py:37-60 | in exact arithmetic the chunks of a completed run add up to the requested total |
| Graph.Dispatch | graph.py:121-130 | the table routes exactly the five keys market, limit, stop_limit, oco and twap |
| Graph.DispatchInvertsKey | graph.py:121-130 | each node is reached by its own key and by no other |
| Graph.GridValidatesButHasNoRoute | graph.py:121-130 | "grid" passes validation with the base fields but has no route |
| Graph.ValidateNode | graph.py:22-28 | `validate_node` fails iff `validate` does, with its error; merging the request with the cleaned request yields the cleaned request |
| Graph.MergeIsCleaned | graph.py:25 | overriding a request with an output that keeps all its keys yields that output |
| Graph.RouteKey | graph.py:34-35 | the route key is the lower-cased order type, and exists iff the request has a text order type; a missing order type raises a key error |
| Graph.RouteKeyOfValidated | graph.py:34-35 | after validation the route key is the order type `validate` settled on |
| Graph.ValidatedIsRoutable | graph.py:40-92 | a validated request carries every field its node reads |
| Graph.RunSingle | graph.py:40-92 | each single-order node sends at most one call (two for OCO), all with the request's symbol and quantity; limit sends the price GTC, stop-limit sends price as limit and stop_price as trigger, OCO sends price as take-profit and stop_price as stop; it succeeds iff every reply it waited for was accepted |
| Graph.Prepare | graph.py:22-56 | a validation failure stops before routing; an order type outside the table has no route; a missing client key raises; otherwise the request goes to the node of its order type, with the validated fields and the request's client |
| Graph.ClientKept | graph.py:42 | validation passes the client through unchanged |
| Graph.RunOrder | graph.py:22-130 | the whole graph: nothing is sent unless preparation succeeds; a single-order node runs on the validated fields; the TWAP node runs five chunks of a fifth of the quantity, one minute apart |
| Graph.RunTwapNode | graph.py:97-105 | the TWAP node's outcome with the default schedule |

## Left out

- Fetching the exchange metadata (`_get_exchange_symbol_info`) is left out. The filters are an input instead. `src/binance_client.py` defines no module-level `client`, so the guarded import in `src/validators.py` always falls back to `None` and the filters are always `None` there.
- `src/advanced/twap.py` imports that same missing `client` without a guard, and the executors import logger names that `src/logger.py` does not define. The model takes each module as if it imported.
- Logging is left out and assumed to succeed. `src/logger.py` opens `bot.log` under the project root, and a failing log call would raise: after a successful `validate` (`src/validators.py:221`), between the OCO legs (`src/advanced/oco.py:47`), or when the quantity error log serialises a request holding the client (`src/validators.py:177`). None of these failures is modelled.
- The `uuid4` identifier is left out and becomes a parameter. The sleep itself is left out; only its `Wait` event in the trace is modelled.
- Filters.ApplyLotSize: the final `round(x, precision)`, with a precision from `log10` of the step, is left out. The model assumes steps that are powers of ten, where that rounding leaves a grid value as it is. For other steps the code re-rounds: a step of 0.25 floors 0.76 to 0.75, which `round(0.75, 1)` turns into 0.8.
- Filters.ApplyPriceFilter: the same for the tick and `round(x, precision)`, under the same power-of-ten assumption. A tick of 0.5 rounds a price to 0.5, which `round(0.5, 0)` turns into 0.0.
- Binary floating-point artefacts (for example `0.1 * 3`) are left out, for the same reason.
- Validators.Coerce: float overflow and underflow are left out. `float("1e-400")` is 0.0, so the code raises "quantity must be > 0", while the model accepts the tiny positive real; `float("1e400")` is infinity, which the model reads as a large finite number.
- Filters.LotRule and Filters.PriceRule: a filter's `stepSize`, `minQty`, `tickSize` and `minPrice` are taken as numbers already converted. The code calls `float()` on them (src/validators.py:64-65, 88-89), which raises on a non-numeric or `None` value and makes `validate` re-raise; exchange metadata that malformed is not modelled.
- `float()` and `int()` of "inf", "nan", "infinity" and texts with underscores are left out and read as errors.
- Text.Upper and Text.Lower: only ASCII letters are mapped. Python's `str.upper()` and `str.lower()` also map other letters, and some of them map to ASCII (`"ſell".upper() == "SELL"`, `"K".lower() == "k"` for the Kelvin sign U+212A); the model leaves such characters as they are, so a side written with them is rejected.
- Decimal.ParseFloat and Decimal.ParseInt: only the ASCII digits 0-9 are read as digits. Python's `float()` and `int()` also accept other Unicode decimal digits, such as Arabic-Indic or full-width ones; the model rejects those texts.
- The `isinstance(state, dict)` guard is left out. Requests are always maps.
- The in-place write of synonyms into the caller's `state` dictionary is left out. Its effect reaches the graph through the validated copy, which holds the same keys.
- The `time_in_force` copy in `validate` is not stated separately. It is covered by the pass-through of unchanged keys.
- The langgraph runtime is left out: node decorators, the `"*"` edge to `done_node`, and `done_node`'s logging.
- `llm_parser.py`, `bot.py` and `src/binance_client.py` are not part of this model.
- Validators.ValidateIdempotent: stated only under conforming metadata (minimums that are positive grid points) and with a non-empty order type and symbol. A whitespace-only symbol validates to the empty text, and a second pass rejects it (`Validators.BlankSymbolAccepted`). Off-grid minimums can make a second pass reject a rounded value.
- Validators.NormalizeSymbolIdempotent: stated for texts with a non-blank character only, for the same reason.
- Oco.ExecuteOco and Twap.ExecuteTwap: failures re-raise the exchange's error as it came. No partial result is attached, because the code attaches none. The trace shows what was sent.
- Twap.ChunksSumToTotal: holds in exact arithmetic only; Python's float division can leave a remainder.

=== FILE: decimal.dfy ===
/**
 * Python's `float(str)` and `int(str)` on decimal text: optional surrounding
 * whitespace, an optional sign, digits with an optional fraction, and (for
 * `float`) an optional exponent. Values are exact reals.
 */
module Decimal {
  import opened Results
  import Text

  predicate IsDigit(c: char) { '0' <= c <= '9' }

  predicate AllDigits(s: string) {
    forall i :: 0 <= i < |s| ==> IsDigit(s[i])
  }

  function DigitChar(d: nat): char
    requires d < 10
  {
    ('0' as int + d) as char
  }

  /** The natural number a run of decimal digits denotes, most significant first. */
  function DigitsValue(ds: string): nat
    requires AllDigits(ds)
  {
    if |ds| == 0 then 0
    else 10 * DigitsValue(ds[..|ds| - 1]) + (ds[|ds| - 1] as int - '0' as int)
  }

  function Pow10(e: nat): (p: nat)
    ensures p >= 1
  {
    if e == 0 then 1 else 10 * Pow10(e - 1)
  }

  /** The index just past the run of digits that starts at `i`. */
  function SpanDigits(s: string, i: nat): (j: nat)
    requires i <= |s|
    ensures i <= j <= |s|
    ensures AllDigits(s[i..j])
    ensures j < |s| ==> !IsDigit(s[j])
    decreases |s| - i
  {
    if i < |s| && IsDigit(s[i]) then
      var j := SpanDigits(s, i + 1);
      assert s[i..j] == [s[i]] + s[i + 1..j];
      j
    else i
  }

  /** The index just past an optional `+` or `-` at `i`. */
  function SkipSign(s: string, i: nat): (j: nat)
    requires i <= |s|
    ensures j == i || (i < |s| && j == i + 1 && (s[i] == '+' || s[i] == '-'))
  {
    if i < |s| && (s[i] == '+' || s[i] == '-') then i + 1 else i
  }

  /**
   * The whitespace `float()` and `int()` skip around a number: every
   * character `str.strip()` removes except the separators U+001C..U+001F,
   * which make the text unparseable.
   */
  predicate IsNumberSpace(c: char) {
    Text.IsSpace(c) && !('\U{1c}' <= c <= '\U{1f}')
  }

  /** `s` neither starts nor ends with number whitespace. */
  predicate NumberTrimmed(s: string) {
    |s| == 0 || (!IsNumberSpace(s[0]) && !IsNumberSpace(s[|s| - 1]))
  }

  /** `s[..i]` and `s[j..]` are all number whitespace. */
  predicate NumberMargins(s: string, i: int, j: int) {
    && 0 <= i <= j <= |s|
    && (forall k :: 0 <= k < i ==> IsNumberSpace(s[k]))
    && (forall k :: j <= k < |s| ==> IsNumberSpace(s[k]))
  }

  function TrimNumberStart(s: string): (r: string)
    ensures |r| <= |s| && r == s[|s| - |r|..]
    ensures forall i :: 0 <= i < |s| - |r| ==> IsNumberSpace(s[i])
    ensures |r| == 0 || !IsNumberSpace(r[0])
  {
    if |s| > 0 && IsNumberSpace(s[0]) then TrimNumberStart(s[1..]) else s
  }

  function TrimNumberEnd(s: string): (r: string)
    ensures |r| <= |s| && r == s[..|r|]
    ensures forall i :: |r| <= i < |s| ==> IsNumberSpace(s[i])
    ensures |r| == 0 || !IsNumberSpace(r[|r| - 1])
  {
    if |s| > 0 && IsNumberSpace(s[|s| - 1]) then TrimNumberEnd(s[..|s| - 1]) else s
  }

  /** The text `float()` and `int()` parse: `s` without its surrounding number whitespace. */
  function TrimNumber(s: string): (r: string)
    ensures NumberTrimmed(r)
    ensures exists i, j :: NumberMargins(s, i, j) && r == s[i..j]
  {
    var t := TrimNumberStart(s);
    var r := TrimNumberEnd(t);
    TrimmedNumberInfix(s, t, r);
    r
  }

  lemma TrimmedNumberInfix(s: string, t: string, r: string)
    requires |t| <= |s| && t == s[|s| - |t|..] && forall k :: 0 <= k < |s| - |t| ==> IsNumberSpace(s[k])
    requires |r| <= |t| && r == t[..|r|] && forall k :: |r| <= k < |t| ==> IsNumberSpace(t[k])
    requires (|t| == 0 || !IsNumberSpace(t[0])) && (|r| == 0 || !IsNumberSpace(r[|r| - 1]))
    ensures NumberMargins(s, |s| - |t|, |s| - |t| + |r|) && r == s[|s| - |t|..|s| - |t| + |r|]
    ensures NumberTrimmed(r)
  {
    var i := |s| - |t|;
    assert |r| > 0 ==> r[0] == t[0];
    forall k | i + |r| <= k < |s|
      ensures IsNumberSpace(s[k])
    {
      assert s[k] == t[k - i];
    }
  }

  /** Text with no number whitespace at either end is parsed as it is. */
  lemma TrimNumberFixes(s: string)
    requires NumberTrimmed(s)
    ensures TrimNumber(s) == s
  {
  }

  /** Ordinary whitespace around a number is skipped. */
  lemma WhitespaceSkipped()
    ensures ParseFloat(" 5\n") == Some(5.0)
  {
    assert TrimNumberStart(" 5\n") == TrimNumberStart("5\n") == "5\n" by {
      assert " 5\n"[1..] == "5\n";
    }
    assert TrimNumberEnd("5\n") == TrimNumberEnd("5") == "5" by {
      assert "5\n"[..1] == "5";
    }
    assert NatText(5) == "5";
    ParseFloatNatText(5);
  }

  /** A separator character is not skipped, although `str.strip()` would remove it. */
  lemma SeparatorNotSkipped()
    ensures ParseFloat("\U{1c}5") == None
  {
    var s := "\U{1c}5";
    TrimNumberFixes(s);
    assert SkipSign(s, 0) == 0 && SpanDigits(s, 0) == 0;
  }

  /** The same for `int()` and a trailing separator. */
  lemma TrailingSeparatorNotSkipped()
    ensures ParseInt("5\U{1f}") == None
  {
    var s := "5\U{1f}";
    TrimNumberFixes(s);
    assert SpanDigits(s, 1) == 1;
    assert SkipSign(s, 0) == 0 && SpanDigits(s, 0) == 1;
  }

  /** `float(s)` on text, `None` where Python raises ValueError. */
  function ParseFloat(s: string): Option<real> {
    ParseStripped(TrimNumber(s))
  }

  /** `float()` on text without surrounding whitespace: sign, digits, an optional fraction, an optional exponent. */
  function ParseStripped(t: string): Option<real> {
    var a := SkipSign(t, 0);
    var b := SpanDigits(t, a);
    var hasDot := b < |t| && t[b] == '.';
    var c := if hasDot then SpanDigits(t, b + 1) else b;
    var whole := t[a..b];
    var frac := if hasDot then t[b + 1..c] else "";
    if |whole| + |frac| == 0 then None
    else
      var magnitude := DigitsValue(whole) as real + DigitsValue(frac) as real / Pow10(|frac|) as real;
      var mantissa := if a == 1 && t[0] == '-' then -magnitude else magnitude;
      if c == |t| then Some(mantissa)
      else if t[c] == 'e' || t[c] == 'E' then
        var d := SkipSign(t, c + 1);
        var e := SpanDigits(t, d);
        if e == d || e < |t| then None
        else
          var scale := Pow10(DigitsValue(t[d..e])) as real;
          Some(if d == c + 2 && t[c + 1] == '-' then mantissa / scale else mantissa * scale)
      else None
  }

  /** `int(s)` on text, `None` where Python raises ValueError. */
  function ParseInt(s: string): Option<int> {
    IntStripped(TrimNumber(s))
  }

  /** `int()` on text without surrounding whitespace: an optional sign and at least one digit. */
  function IntStripped(t: string): Option<int> {
    var a := SkipSign(t, 0);
    var b := SpanDigits(t, a);
    if b == a || b < |t| then None
    else
      var n: int := DigitsValue(t[a..b]);
      Some(if a == 1 && t[0] == '-' then -n else n)
  }

  /** The decimal rendering of a natural number, as `str(n)` gives it. */
  function NatText(n: nat): (s: string)
    ensures |s| > 0 && AllDigits(s)
  {
    if n < 10 then [DigitChar(n)] else NatText(n / 10) + [DigitChar(n % 10)]
  }

  lemma {:induction false} NatTextValue(n: nat)
    ensures DigitsValue(NatText(n)) == n
  {
    if n >= 10 {
      var s := NatText(n);
      assert s[..|s| - 1] == NatText(n / 10);
      NatTextValue(n / 10);
    }
  }

  lemma AllDigitsTrimmed(s: string)
    requires |s| > 0 && AllDigits(s)
    ensures NumberTrimmed(s)
  {
  }

  /** `float(str(n)) == n` */
  lemma {:induction false} ParseFloatNatText(n: nat)
    ensures ParseFloat(NatText(n)) == Some(n as real)
  {
    var t := NatText(n);
    AllDigitsTrimmed(t);
    TrimNumberFixes(t);
    assert SkipSign(t, 0) == 0;
    SpanDigitsAll(t, 0);
    assert t[0..|t|] == t;
    NatTextValue(n);
  }

  /** `int(str(n)) == n` */
  lemma {:induction false} ParseIntNatText(n: nat)
    ensures ParseInt(NatText(n)) == Some(n)
  {
    var t := NatText(n);
    AllDigitsTrimmed(t);
    TrimNumberFixes(t);
    assert SkipSign(t, 0) == 0;
    SpanDigitsAll(t, 0);
    assert t[0..|t|] == t;
    NatTextValue(n);
  }

  /** Every text `int()` accepts, `float()` accepts with the same value. */
  lemma IntTextIsFloatText(s: string)
    requires ParseInt(s).Some?
    ensures ParseFloat(s) == Some(ParseInt(s).value as real)
  {
    StrippedIntIsFloat(TrimNumber(s));
  }

  lemma StrippedIntIsFloat(t: string)
    requires IntStripped(t).Some?
    ensures ParseStripped(t) == Some(IntStripped(t).value as real)
  {
    var a := SkipSign(t, 0);
    var b := SpanDigits(t, a);
    assert b == |t| && b > a;
    assert Pow10(0) == 1;
    assert DigitsValue("") == 0;
  }

  lemma {:induction false} SpanDigitsAll(s: string, i: nat)
    requires i <= |s| && AllDigits(s)
    ensures SpanDigits(s, i) == |s|
    decreases |s| - i
  {
    if i < |s| {
      SpanDigitsAll(s, i + 1);
    }
  }
}

=== FILE: errors.dfy ===
/** The exceptions the order pipeline raises, one constructor per distinct cause. */
module Errors {

  datatype Error =
      /** `.strip()` called on a value that is not a string (Python's AttributeError) */
    | NotText(field: string)
    | MissingSymbol
    | MissingSide
    | InvalidSide
    | MissingField(orderType: string, field: string)
    | MissingQuantity
      /** `float(x)` failed inside `_to_float` */
    | NotNumeric(field: string)
    | NotPositive(field: string)
    | BelowMinQty(quantity: real, minQty: real)
    | BelowMinPrice(price: real, minPrice: real)
      /** `int(x)` failed */
    | NotAnInteger(field: string)
    | IntervalsNotPositive
      /** `time.sleep` called with a negative length */
    | NegativeDelay
      /** the executors' explicit `client is None` guard (RuntimeError) */
    | ClientUnavailable
      /** `client.futures_create_order` on something that is not a client (AttributeError) */
    | NotAClient
      /** a gateway failure, re-raised unchanged */
    | Rejected(reason: string)
      /** `state[key]` on a missing key (KeyError) */
    | MissingKey(key: string)
      /** the router's dispatch table has no entry for the order type */
    | NoRoute(orderType: string)
}

=== FILE: exchange.dfy ===
/**
 * The exchange gateway as the executors see it: order payloads, the replies
 * of `client.futures_create_order`, and the trace of calls and pauses an
 * execution leaves behind.
 *
 * The gateway is an input: `gateway(k)` is the reply to the `k`-th order
 * call of an execution, counting from zero.
 */
module Exchange {
  import opened Results
  import opened Errors
  import opened Values

  /** The response body of an accepted order, returned to the caller as it came. */
  datatype Ack = Ack(orderId: int)

  datatype Reply = Accept(ack: Ack) | Reject(reason: string)

  type Gateway = nat -> Reply

  /** The keyword arguments of one `futures_create_order` call; absent keys are `None`. */
  datatype OrderPayload = OrderPayload(
    symbol: string,
    side: string,
    orderType: string,
    quantity: real,
    price: Option<real>,
    stopPrice: Option<real>,
    timeInForce: Option<string>,
    clientOrderId: Option<string>)

  /** What an execution did, in order: an order call, or a `time.sleep`. */
  datatype Event = Submit(order: OrderPayload) | Wait(seconds: real)

  /** The outcome of an execution together with everything it did on the way. */
  datatype Run<+T> = Run(result: Result<T, Error>, trace: seq<Event>)

  /** The payload of a plain market order: no price, stop price, time in force or client id. */
  function MarketOrder(symbol: string, side: string, quantity: real): (p: OrderPayload)
    ensures p.orderType == "MARKET" && p.quantity == quantity
    ensures p.symbol == symbol && p.side == side
    ensures p.price.None? && p.stopPrice.None? && p.timeInForce.None? && p.clientOrderId.None?
  {
    OrderPayload(symbol, side, "MARKET", quantity, None, None, None, None)
  }

  /**
   * One `client.futures_create_order(**payload)` call as the `k`-th call of
   * an execution. Anything but the client object fails before reaching the
   * exchange; a rejection is re-raised as it came.
   */
  function Place(client: Value, gateway: Gateway, k: nat, payload: OrderPayload): (r: Run<Ack>)
    ensures !client.Client? ==> r == Run(Failure(NotAClient), [])
    ensures client.Client? ==> r.trace == [Submit(payload)]
    ensures r.result.Success? <==> client.Client? && gateway(k).Accept?
    ensures r.result.Success? ==> r.result.value == gateway(k).ack
    ensures client.Client? && gateway(k).Reject? ==> r.result == Failure(Rejected(gateway(k).reason))
  {
    if !client.Client? then Run(Failure(NotAClient), [])
    else match gateway(k)
      case Accept(ack) => Run(Success(ack), [Submit(payload)])
      case Reject(reason) => Run(Failure(Rejected(reason)), [Submit(payload)])
  }

  /** The orders submitted in a trace, in submission order. */
  function Submitted(trace: seq<Event>): (orders: seq<OrderPayload>)
    ensures |orders| <= |trace|
  {
    if |trace| == 0 then []
    else (if trace[0].Submit? then [trace[0].order] else []) + Submitted(trace[1..])
  }

  /** The number of pauses in a trace. */
  function Waits(trace: seq<Event>): (n: nat)
    ensures n <= |trace|
  {
    if |trace| == 0 then 0 else (if trace[0].Wait? then 1 else 0) + Waits(trace[1..])
  }

  lemma {:induction false} SubmittedAppend(a: seq<Event>, b: seq<Event>)
    ensures Submitted(a + b) == Submitted(a) + Submitted(b)
  {
    if |a| == 0 {
      assert a + b == b;
    } else {
      var ab := a + b;
      assert ab[0] == a[0];
      assert ab[1..] == a[1..] + b;
      SubmittedAppend(a[1..], b);
    }
  }

  lemma {:induction false} WaitsAppend(a: seq<Event>, b: seq<Event>)
    ensures Waits(a + b) == Waits(a) + Waits(b)
  {
    if |a| == 0 {
      assert a + b == b;
    } else {
      var ab := a + b;
      assert ab[0] == a[0];
      assert ab[1..] == a[1..] + b;
      WaitsAppend(a[1..], b);
    }
  }
}

=== FILE: filters.dfy ===
/**
 * The exchange's LOT_SIZE and PRICE_FILTER rules and the two routines of the
 * validator that apply them to a quantity (round down to a step multiple)
 * and to a price (round to the nearest tick). Arithmetic is exact.
 */
module Filters {
  import opened Results
  import opened Errors

  /**
   * One entry of a symbol's `filters` list. A numeric field holds the number
   * it converts to, or `None` when the entry lacks the key; a field that does
   * not convert is not representable.
   */
  datatype Filter =
    | LotSize(minQty: Option<real>, stepSize: Option<real>)
    | PriceFilter(minPrice: Option<real>, tickSize: Option<real>)
    | OtherFilter(filterType: string)

  /** The exchange metadata for a symbol: its `filters` list, `None` when no metadata is available. */
  type Metadata = Option<seq<Filter>>

  /** The minimum and the increment a filter imposes. */
  datatype Rule = Rule(minimum: real, increment: real)

  /** A field's number, with 0 for an absent key, as `f.get(key, 0)` gives for a field that converts. */
  function OrZero(x: Option<real>): real {
    if x.Some? then x.value else 0.0
  }

  /** `x` is a whole multiple of `step`. */
  predicate OnGrid(x: real, step: real) {
    step > 0.0 && (x / step).Floor as real == x / step
  }

  /** The first LotSize entry of `fs`: the one the source's `for ... break` loop keeps. */
  function FirstLotSize(fs: seq<Filter>): (r: Option<Filter>)
    ensures r.Some? ==> r.value.LotSize? && r.value in fs
    ensures r.Some? ==> exists i :: 0 <= i < |fs| && r.value == fs[i] && forall j :: 0 <= j < i ==> !fs[j].LotSize?
    ensures r.None? <==> forall i :: 0 <= i < |fs| ==> !fs[i].LotSize?
  {
    if |fs| == 0 then None
    else if fs[0].LotSize? then Some(fs[0])
    else
      var r := FirstLotSize(fs[1..]);
      assert forall i :: 1 <= i < |fs| ==> fs[i] == fs[1..][i - 1];
      assert r.Some? ==> exists i :: 0 <= i < |fs| && r.value == fs[i] && forall j :: 0 <= j < i ==> !fs[j].LotSize? by {
        if r.Some? {
          var k :| 0 <= k < |fs[1..]| && r.value == fs[1..][k] && forall j :: 0 <= j < k ==> !fs[1..][j].LotSize?;
          assert r.value == fs[k + 1];
        }
      }
      r
  }

  /** The first PriceFilter entry of `fs`: the one the source's `for ... break` loop keeps. */
  function FirstPriceFilter(fs: seq<Filter>): (r: Option<Filter>)
    ensures r.Some? ==> r.value.PriceFilter? && r.value in fs
    ensures r.Some? ==> exists i :: 0 <= i < |fs| && r.value == fs[i] && forall j :: 0 <= j < i ==> !fs[j].PriceFilter?
    ensures r.None? <==> forall i :: 0 <= i < |fs| ==> !fs[i].PriceFilter?
  {
    if |fs| == 0 then None
    else if fs[0].PriceFilter? then Some(fs[0])
    else
      var r := FirstPriceFilter(fs[1..]);
      assert forall i :: 1 <= i < |fs| ==> fs[i] == fs[1..][i - 1];
      assert r.Some? ==> exists i :: 0 <= i < |fs| && r.value == fs[i] && forall j :: 0 <= j < i ==> !fs[j].PriceFilter? by {
        if r.Some? {
          var k :| 0 <= k < |fs[1..]| && r.value == fs[1..][k] && forall j :: 0 <= j < k ==> !fs[1..][j].PriceFilter?;
          assert r.value == fs[k + 1];
        }
      }
      r
  }

  /** The quantity rule in force: the first LOT_SIZE filter, if the list is non-empty. */
  function LotRule(filters: Metadata): (r: Option<Rule>)
    ensures r.Some? ==> filters.Some? && exists f :: f in filters.value && f.LotSize?
    ensures r.Some? <==> filters.Some? && FirstLotSize(filters.value).Some?
    ensures r.Some? ==>
      var f := FirstLotSize(filters.value).value;
      r.value == Rule(OrZero(f.minQty), OrZero(f.stepSize))
  {
    if filters.None? || |filters.value| == 0 then None
    else match FirstLotSize(filters.value)
      case None => None
      case Some(f) => Some(Rule(OrZero(f.minQty), OrZero(f.stepSize)))
  }

  /** The price rule in force: the first PRICE_FILTER, if the list is non-empty. */
  function PriceRule(filters: Metadata): (r: Option<Rule>)
    ensures r.Some? ==> filters.Some? && exists f :: f in filters.value && f.PriceFilter?
    ensures r.Some? <==> filters.Some? && FirstPriceFilter(filters.value).Some?
    ensures r.Some? ==>
      var f := FirstPriceFilter(filters.value).value;
      r.value == Rule(OrZero(f.minPrice), OrZero(f.tickSize))
  {
    if filters.None? || |filters.value| == 0 then None
    else match FirstPriceFilter(filters.value)
      case None => None
      case Some(f) => Some(Rule(OrZero(f.minPrice), OrZero(f.tickSize)))
  }

  lemma MulMono(a: real, b: real, c: real)
    requires c > 0.0 && a <= b
    ensures a * c <= b * c
  {
  }

  lemma MulStrictMono(a: real, b: real, c: real)
    requires c > 0.0 && a < b
    ensures a * c < b * c
  {
  }

  lemma DivMono(a: real, b: real, c: real)
    requires c > 0.0 && a <= b
    ensures a / c <= b / c
  {
  }

  lemma DivCancel(x: real, c: real)
    requires c > 0.0
    ensures (x / c) * c == x
    ensures (x * c) / c == x
  {
  }

  lemma IntFloor(n: int)
    ensures (n as real).Floor == n
  {
  }

  /** Every whole multiple of a positive step is on its grid. */
  lemma GridPoint(n: int, step: real)
    requires step > 0.0
    ensures OnGrid(n as real * step, step)
  {
    DivCancel(n as real, step);
    IntFloor(n);
  }

  /** A point on the grid is the multiple its quotient names. */
  lemma GridQuotient(x: real, step: real)
    requires OnGrid(x, step)
    ensures (x / step).Floor as real * step == x
  {
    DivCancel(x, step);
  }

  lemma NonNegativeMultiple(n: int, step: real)
    requires step > 0.0
    ensures n >= 0 ==> n as real * step >= 0.0
  {
    if n >= 0 {
      MulMono(0.0, n as real, step);
    }
  }

  lemma FloorBelow(q: real, step: real)
    requires step > 0.0
    ensures (q / step).Floor as real * step <= q
  {
    DivCancel(q, step);
    MulMono((q / step).Floor as real, q / step, step);
  }

  lemma FloorAbove(q: real, step: real)
    requires step > 0.0
    ensures q < (q / step).Floor as real * step + step
  {
    var n := (q / step).Floor as real;
    DivCancel(q, step);
    MulStrictMono(q / step, n + 1.0, step);
    assert (n + 1.0) * step == n * step + step;
  }

  /** `math.floor(q / step) * step`: the largest step multiple not above `q`. */
  function FloorToStep(q: real, step: real): (r: real)
    requires step > 0.0
    ensures OnGrid(r, step)
    ensures r <= q < r + step
    ensures q >= 0.0 ==> r >= 0.0
  {
    var n := (q / step).Floor;
    FloorBelow(q, step);
    FloorAbove(q, step);
    GridPoint(n, step);
    NonNegativeMultiple(n, step);
    n as real * step
  }

  /** Python's `round(x)`: the nearest integer, ties to the even one. */
  function RoundHalfEven(x: real): (n: int)
    ensures x - 0.5 <= n as real <= x + 0.5
    ensures (n as real - x == 0.5 || x - n as real == 0.5) ==> n % 2 == 0
    ensures x.Floor <= n
  {
    var n := x.Floor;
    var f := x - n as real;
    if f < 0.5 then n
    else if f > 0.5 then n + 1
    else if n % 2 == 0 then n
    else n + 1
  }

  lemma RoundBelow(p: real, tick: real)
    requires tick > 0.0
    ensures p - tick / 2.0 <= RoundHalfEven(p / tick) as real * tick
  {
    var y := p / tick;
    DivCancel(p, tick);
    MulMono(y - 0.5, RoundHalfEven(y) as real, tick);
    assert (y - 0.5) * tick == y * tick - 0.5 * tick;
  }

  lemma RoundAbove(p: real, tick: real)
    requires tick > 0.0
    ensures RoundHalfEven(p / tick) as real * tick <= p + tick / 2.0
  {
    var y := p / tick;
    DivCancel(p, tick);
    MulMono(RoundHalfEven(y) as real, y + 0.5, tick);
    assert (y + 0.5) * tick == y * tick + 0.5 * tick;
  }

  /** `round(p / tick) * tick`: the tick multiple nearest to `p`. */
  function RoundToTick(p: real, tick: real): (r: real)
    requires tick > 0.0
    ensures OnGrid(r, tick)
    ensures p - tick / 2.0 <= r <= p + tick / 2.0
    ensures p >= 0.0 ==> r >= 0.0
  {
    var k := RoundHalfEven(p / tick);
    RoundBelow(p, tick);
    RoundAbove(p, tick);
    GridPoint(k, tick);
    NonNegativeMultiple(k, tick);
    k as real * tick
  }

  /**
   * `_apply_lot_size_filters`: reject a quantity below the rule's minimum,
   * then round it down to a step multiple when the step is positive.
   */
  function ApplyLotSize(q: real, filters: Metadata): (r: Result<real, Error>)
    ensures filters.None? ==> r == Success(q)
    ensures r.Failure? <==> LotRule(filters).Some? && q < LotRule(filters).value.minimum
    ensures r.Failure? ==> r.error == BelowMinQty(q, LotRule(filters).value.minimum)
    ensures r.Success? ==> r.value <= q
    ensures r.Success? && q >= 0.0 ==> r.value >= 0.0
    ensures r.Success? && (LotRule(filters).None? || LotRule(filters).value.increment <= 0.0) ==> r.value == q
    ensures r.Success? && LotRule(filters).Some? && LotRule(filters).value.increment > 0.0 ==>
      var step := LotRule(filters).value.increment;
      OnGrid(r.value, step) && q - step < r.value
  {
    match LotRule(filters)
    case None => Success(q)
    case Some(rule) =>
      if q < rule.minimum then Failure(BelowMinQty(q, rule.minimum))
      else if rule.increment > 0.0 then Success(FloorToStep(q, rule.increment))
      else Success(q)
  }

  /**
   * `_apply_price_filters`: reject a price below the rule's minimum, then
   * round it to the nearest tick multiple when the tick is positive.
   */
  function ApplyPriceFilter(p: real, filters: Metadata): (r: Result<real, Error>)
    ensures filters.None? ==> r == Success(p)
    ensures r.Failure? <==> PriceRule(filters).Some? && p < PriceRule(filters).value.minimum
    ensures r.Failure? ==> r.error == BelowMinPrice(p, PriceRule(filters).value.minimum)
    ensures r.Success? && p >= 0.0 ==> r.value >= 0.0
    ensures r.Success? && (PriceRule(filters).None? || PriceRule(filters).value.increment <= 0.0) ==> r.value == p
    ensures r.Success? && PriceRule(filters).Some? && PriceRule(filters).value.increment > 0.0 ==>
      var tick := PriceRule(filters).value.increment;
      OnGrid(r.value, tick) && p - tick / 2.0 <= r.value <= p + tick / 2.0
  {
    match PriceRule(filters)
    case None => Success(p)
    case Some(rule) =>
      if p < rule.minimum then Failure(BelowMinPrice(p, rule.minimum))
      else if rule.increment > 0.0 then Success(RoundToTick(p, rule.increment))
      else Success(p)
  }

  /** `m` is a positive multiple of `step`. */
  predicate PositiveGridPoint(m: real, step: real) {
    m > 0.0 && OnGrid(m, step)
  }

  /**
   * Exchange metadata whose minimums are themselves positive multiples of
   * their step and tick, as the venue publishes them.
   */
  predicate Conforming(filters: Metadata) {
    && (LotRule(filters).Some? && LotRule(filters).value.increment > 0.0 ==>
          PositiveGridPoint(LotRule(filters).value.minimum, LotRule(filters).value.increment))
    && (PriceRule(filters).Some? && PriceRule(filters).value.increment > 0.0 ==>
          PositiveGridPoint(PriceRule(filters).value.minimum, PriceRule(filters).value.increment))
  }

  /** Rounding down keeps a quantity at or above a minimum that lies on the grid. */
  lemma GridFloorAboveMinimum(q: real, m: real, step: real)
    requires OnGrid(m, step) && m <= q
    ensures m <= FloorToStep(q, step)
  {
    var j := (m / step).Floor;
    DivMono(m, q, step);
    assert j <= (q / step).Floor;
    MulMono(j as real, (q / step).Floor as real, step);
    GridQuotient(m, step);
  }

  /** Rounding to the nearest tick keeps a price at or above a minimum that lies on the grid. */
  lemma GridRoundAboveMinimum(p: real, m: real, tick: real)
    requires OnGrid(m, tick) && m <= p
    ensures m <= RoundToTick(p, tick)
  {
    var j := (m / tick).Floor;
    DivMono(m, p, tick);
    assert j <= (p / tick).Floor <= RoundHalfEven(p / tick);
    MulMono(j as real, RoundHalfEven(p / tick) as real, tick);
    GridQuotient(m, tick);
  }

  /** A grid point is a fixed point of rounding down. */
  lemma FloorToStepFixes(x: real, step: real)
    requires OnGrid(x, step)
    ensures FloorToStep(x, step) == x
  {
    GridQuotient(x, step);
  }

  /** A grid point is a fixed point of rounding to the nearest tick. */
  lemma RoundToTickFixes(x: real, tick: real)
    requires OnGrid(x, tick)
    ensures RoundToTick(x, tick) == x
  {
    var j := (x / tick).Floor;
    assert RoundHalfEven(j as real) == j;
    GridQuotient(x, tick);
  }

  /**
   * Under conforming metadata an accepted quantity is positive and the lot-size
   * routine leaves it unchanged when applied again.
   */
  lemma {:induction false} LotSizeIdempotent(q: real, filters: Metadata)
    requires Conforming(filters) && q > 0.0 && ApplyLotSize(q, filters).Success?
    ensures ApplyLotSize(q, filters).value > 0.0
    ensures ApplyLotSize(ApplyLotSize(q, filters).value, filters) == ApplyLotSize(q, filters)
  {
    match LotRule(filters)
    case None =>
    case Some(rule) =>
      if rule.increment > 0.0 {
        GridFloorAboveMinimum(q, rule.minimum, rule.increment);
        FloorToStepFixes(FloorToStep(q, rule.increment), rule.increment);
      }
  }

  /**
   * Under conforming metadata an accepted price is positive and the price
   * routine leaves it unchanged when applied again.
   */
  lemma {:induction false} PriceFilterIdempotent(p: real, filters: Metadata)
    requires Conforming(filters) && p > 0.0 && ApplyPriceFilter(p, filters).Success?
    ensures ApplyPriceFilter(p, filters).value > 0.0
    ensures ApplyPriceFilter(ApplyPriceFilter(p, filters).value, filters) == ApplyPriceFilter(p, filters)
  {
    match PriceRule(filters)
    case None =>
    case Some(rule) =>
      if rule.increment > 0.0 {
        GridRoundAboveMinimum(p, rule.minimum, rule.increment);
        RoundToTickFixes(RoundToTick(p, rule.increment), rule.increment);
      }
  }

  /**
   * The minimum is checked before rounding, so a quantity that meets it can
   * still round down to zero when the step exceeds the minimum.
   */
  lemma QuantityCanRoundToZero()
    ensures ApplyLotSize(0.5, Some([LotSize(Some(0.1), Some(1.0))])) == Success(0.0)
  {
    assert FloorToStep(0.5, 1.0) == 0.0 by {
      assert (0.5 / 1.0).Floor == 0;
    }
  }

  /**
   * For the same reason a quantity can round down below a minimum that is
   * not itself a step multiple.
   */
  lemma QuantityCanRoundBelowMinimum()
    ensures ApplyLotSize(0.17, Some([LotSize(Some(0.15), Some(0.1))])) == Success(0.1)
  {
    assert FloorToStep(0.17, 0.1) == 0.1 by {
      assert (0.17 / 0.1).Floor == 1;
    }
  }

  /**
   * Prices are rounded to the nearest tick after the minimum is checked, so
   * a price that meets the minimum can still round to zero.
   */
  lemma PriceCanRoundToZero()
    ensures ApplyPriceFilter(0.4, Some([PriceFilter(Some(0.1), Some(1.0))])) == Success(0.0)
  {
    assert RoundToTick(0.4, 1.0) == 0.0 by {
      assert (0.4 / 1.0).Floor == 0;
    }
  }
}

=== FILE: graph.dfy ===
/**
 * The order graph of `build_bot_graph`: validate and merge, route on the
 * lower-cased order type through a fixed five-entry table, then run the
 * matching executor with the fields of the validated state.
 */
module Graph {
  import opened Results
  import opened Errors
  import opened Values
  import opened Filters
  import opened Exchange
  import Text
  import Validators
  import MarketOrders
  import LimitOrders
  import StopLimit
  import Oco
  import Twap

  /** The executor nodes the router can reach. */
  datatype Node = MarketNode | LimitNode | StopLimitNode | OcoNode | TwapNode

  /** The route key under which each node is registered. */
  function Key(node: Node): string {
    match node
    case MarketNode => "market"
    case LimitNode => "limit"
    case StopLimitNode => "stop_limit"
    case OcoNode => "oco"
    case TwapNode => "twap"
  }

  /** The conditional-edge table: a route key to its node, if it has one. */
  function Dispatch(key: string): (node: Option<Node>)
    ensures node.Some? <==> key in {"market", "limit", "stop_limit", "oco", "twap"}
  {
    if key == "market" then Some(MarketNode)
    else if key == "limit" then Some(LimitNode)
    else if key == "stop_limit" then Some(StopLimitNode)
    else if key == "oco" then Some(OcoNode)
    else if key == "twap" then Some(TwapNode)
    else None
  }

  /** The table and the registration keys are inverse: every node is reached by exactly its own key. */
  lemma DispatchInvertsKey(node: Node, key: string)
    ensures Dispatch(Key(node)) == Some(node)
    ensures Dispatch(key) == Some(node) <==> key == Key(node)
  {
  }

  /** "grid" needs only the base fields at validation, yet the table has no route for it. */
  lemma GridValidatesButHasNoRoute()
    ensures Validators.RequiredFor("grid") == Validators.BaseFields
    ensures Dispatch("grid") == None
  {
  }

  /** `validate_node`: the input overridden by the validated fields, or the validation error. */
  function ValidateNode(state: State, filters: Metadata): (r: Result<State, Error>)
    ensures r.Failure? <==> Validators.Validate(state, filters).Failure?
    ensures r.Failure? ==> r.error == Validators.Validate(state, filters).error
    ensures r.Success? ==> r.value == Validators.Validate(state, filters).value
  {
    var cleaned :- Validators.Validate(state, filters);
    MergeIsCleaned(state, cleaned);
    Success(state + cleaned)
  }

  /** Overriding a request with a result that keeps all of its keys yields that result. */
  lemma MergeIsCleaned(state: State, cleaned: State)
    requires Validators.Extends(cleaned, state)
    ensures state + cleaned == cleaned
  {
  }

  /** `route_node`: `state["order_type"].lower()`. */
  function RouteKey(state: State): (r: Result<string, Error>)
    ensures "order_type" !in state ==> r == Failure(MissingKey("order_type"))
    ensures r.Success? ==> Text.IsLower(r.value) && "order_type" in state && state["order_type"].Str?
    ensures r.Success? ==> |r.value| == |state["order_type"].s|
    ensures r.Success? ==> r.value == Text.Lower(state["order_type"].s)
    ensures r.Success? <==> "order_type" in state && state["order_type"].Str?
    ensures "order_type" in state && !state["order_type"].Str? ==> r == Failure(NotText("order_type"))
  {
    if "order_type" !in state then Failure(MissingKey("order_type"))
    else if !state["order_type"].Str? then Failure(NotText("order_type"))
    else Success(Text.Lower(state["order_type"].s))
  }

  /** The route key of a validated request is the order type `validate` settled on. */
  lemma RouteKeyOfValidated(state: State, filters: Metadata)
    requires Validators.Validate(state, filters).Success?
    ensures RouteKey(Validators.Validate(state, filters).value) == Success(Validators.OrderKind(state).value)
  {
    Text.LowerFixed(Validators.OrderKind(state).value);
  }

  /** What an executor node hands back. */
  datatype Execution = Order(ack: Ack) | OcoPair(fill: Oco.OcoFill) | Chunks(acks: seq<Ack>)

  function AsOrder(r: Run<Ack>): (e: Run<Execution>)
    ensures e.trace == r.trace && (e.result.Success? <==> r.result.Success?)
    ensures r.result.Success? ==> e.result.value == Order(r.result.value)
    ensures r.result.Failure? ==> e.result.error == r.result.error
  {
    match r.result
    case Success(ack) => Run(Success(Order(ack)), r.trace)
    case Failure(e) => Run(Failure(e), r.trace)
  }

  function AsOcoPair(r: Run<Oco.OcoFill>): (e: Run<Execution>)
    ensures e.trace == r.trace && (e.result.Success? <==> r.result.Success?)
    ensures r.result.Success? ==> e.result.value == OcoPair(r.result.value)
    ensures r.result.Failure? ==> e.result.error == r.result.error
  {
    match r.result
    case Success(fill) => Run(Success(OcoPair(fill)), r.trace)
    case Failure(e) => Run(Failure(e), r.trace)
  }

  function AsChunks(r: Run<seq<Ack>>): (e: Run<Execution>)
    ensures e.trace == r.trace && (e.result.Success? <==> r.result.Success?)
    ensures r.result.Success? ==> e.result.value == Chunks(r.result.value)
    ensures r.result.Failure? ==> e.result.error == r.result.error
  {
    match r.result
    case Success(acks) => Run(Success(Chunks(acks)), r.trace)
    case Failure(e) => Run(Failure(e), r.trace)
  }

  /**
   * The validated request a node receives: the fields every node reads, and
   * the prices its order type requires.
   */
  predicate Routable(s: State, kind: string) {
    && "symbol" in s && s["symbol"].Str?
    && "side" in s && s["side"].Str?
    && "quantity" in s && s["quantity"].Num?
    && (Validators.NeedsPrice(kind) ==> "price" in s && s["price"].Num?)
    && (Validators.NeedsStopPrice(kind) ==> "stop_price" in s && s["stop_price"].Num?)
  }

  /** A validated request carries every field its node reads. */
  lemma ValidatedIsRoutable(state: State, filters: Metadata)
    requires Validators.Validate(state, filters).Success?
    ensures Routable(Validators.Validate(state, filters).value, Validators.OrderKind(state).value)
  {
    var kind := Validators.OrderKind(state).value;
    var out := Validators.Validate(state, filters).value;
    assert Validators.RequiredFields(kind) == Validators.RequiredFor(kind);
    assert Validators.NeedsPrice(kind) ==> "price" in out by {
      if Validators.NeedsPrice(kind) {
        assert "price" in Validators.RequiredFields(kind);
      }
    }
    assert Validators.NeedsStopPrice(kind) ==> "stop_price" in out by {
      if Validators.NeedsStopPrice(kind) {
        assert "stop_price" in Validators.RequiredFields(kind);
      }
    }
  }

  /**
   * A single-order node (market, limit, stop-limit or OCO) with the fields it
   * passes: the price as the limit or take-profit price, the stop price as
   * the trigger, and no time in force, so LIMIT orders go out GTC.
   */
  function RunSingle(node: Node, s: State, client: Value, gateway: Gateway, uuid: string): (r: Run<Execution>)
    requires node != TwapNode && Routable(s, Key(node))
    ensures r.trace == [] <==> !client.Client?
    ensures |r.trace| <= (if node == OcoNode then 2 else 1)
    ensures forall i :: 0 <= i < |r.trace| ==>
      r.trace[i].Submit? && r.trace[i].order.symbol == s["symbol"].s && r.trace[i].order.quantity == s["quantity"].x
    ensures node != OcoNode && r.trace != [] ==> r.trace[0].order.side == s["side"].s
    ensures node == MarketNode && r.trace != [] ==> r.trace[0].order.orderType == "MARKET"
    ensures node == LimitNode && r.trace != [] ==>
      r.trace[0].order.orderType == "LIMIT" && r.trace[0].order.price == Some(s["price"].x) &&
      r.trace[0].order.timeInForce == Some("GTC")
    ensures node == StopLimitNode && r.trace != [] ==>
      r.trace[0].order.price == Some(s["price"].x) && r.trace[0].order.stopPrice == Some(s["stop_price"].x)
    ensures node == OcoNode && r.trace != [] ==> r.trace[0].order.price == Some(s["price"].x)
    ensures node == OcoNode && |r.trace| == 2 ==> r.trace[1].order.stopPrice == Some(s["stop_price"].x)
    ensures r.result.Success? <==> client.Client? && gateway(0).Accept? && (node == OcoNode ==> gateway(1).Accept?)
  {
    var symbol, side, quantity := s["symbol"].s, s["side"].s, s["quantity"].x;
    match node
    case MarketNode => AsOrder(MarketOrders.ExecuteMarket(client, gateway, symbol, side, quantity))
    case LimitNode => AsOrder(LimitOrders.ExecuteLimit(client, gateway, symbol, side, quantity, s["price"].x, None))
    case StopLimitNode =>
      AsOrder(StopLimit.ExecuteStopLimit(client, gateway, symbol, side, quantity, s["stop_price"].x, s["price"].x))
    case OcoNode => AsOcoPair(Oco.ExecuteOco(client, gateway, uuid, symbol, side, quantity, s["price"].x, s["stop_price"].x))
  }

  /** A validated request on its way to a node, with the client the node will use. */
  datatype Route = Route(node: Node, state: State, client: Value)

  /**
   * `validate_node` and `route_node` followed by the table lookup and the
   * node's `state["client"]`: a validation failure stops before any node
   * runs, an order type outside the table has no route, and a missing client
   * key raises.
   */
  function Prepare(state: State, filters: Metadata): (r: Result<Route, Error>)
    ensures Validators.Validate(state, filters).Failure? ==>
      r == Failure(Validators.Validate(state, filters).error)
    ensures Validators.Validate(state, filters).Success? ==>
      var kind := Validators.OrderKind(state).value;
      && (Dispatch(kind).None? ==> r == Failure(NoRoute(kind)))
      && (Dispatch(kind).Some? && "client" !in state ==> r == Failure(MissingKey("client")))
      && (Dispatch(kind).Some? && "client" in state ==>
            r == Success(Route(Dispatch(kind).value, Validators.Validate(state, filters).value, state["client"])))
    ensures r.Success? ==> Routable(r.value.state, Key(r.value.node))
  {
    var validated := ValidateNode(state, filters);
    if validated.Failure? then Failure(validated.error)
    else
      var s := validated.value;
      RouteKeyOfValidated(state, filters);
      ValidatedIsRoutable(state, filters);
      ClientKept(state, s);
      var key := RouteKey(s).value;
      match Dispatch(key)
      case None => Failure(NoRoute(key))
      case Some(node) =>
        DispatchInvertsKey(node, key);
        if "client" !in s then Failure(MissingKey("client"))
        else Success(Route(node, s, s["client"]))
  }

  /** Validation passes the client through: it is not a field `validate` rewrites. */
  lemma ClientKept(state: State, cleaned: State)
    requires Validators.Extends(cleaned, state)
    ensures "client" in cleaned <==> "client" in state
    ensures "client" in state ==> cleaned["client"] == state["client"]
  {
  }

  /**
   * The whole graph on one request: the node the request was routed to
   * runs on the validated fields. The TWAP node builds its request from
   * symbol, side and quantity only, so the defaults of five chunks one
   * minute apart apply.
   */
  method RunOrder(state: State, filters: Metadata, gateway: Gateway, uuid: string) returns (r: Run<Execution>)
    ensures Prepare(state, filters).Failure? ==> r == Run(Failure(Prepare(state, filters).error), [])
    ensures Prepare(state, filters).Success? && Prepare(state, filters).value.node != TwapNode ==>
      var route := Prepare(state, filters).value;
      r == RunSingle(route.node, route.state, route.client, gateway, uuid)
    ensures Prepare(state, filters).Success? && Prepare(state, filters).value.node == TwapNode ==>
      var s := Prepare(state, filters).value.state;
      TwapOutcome(r, Prepare(state, filters).value.client, gateway,
                  MarketOrder(s["symbol"].s, s["side"].s, s["quantity"].x / Twap.DefaultIntervals as real))
  {
    var prepared := Prepare(state, filters);
    if prepared.Failure? {
      return Run(Failure(prepared.error), []);
    }
    var route := prepared.value;
    var s := route.state;
    if route.node == TwapNode {
      r := RunTwapNode(route.client, gateway, s["symbol"].s, s["side"].s, s["quantity"].x);
    } else {
      r := RunSingle(route.node, s, route.client, gateway, uuid);
    }
  }

  /** The TWAP node: `execute_twap` on symbol, side and quantity alone. */
  method RunTwapNode(client: Value, gateway: Gateway, symbol: string, side: string, quantity: real)
    returns (r: Run<Execution>)
    ensures TwapOutcome(r, client, gateway, MarketOrder(symbol, side, quantity / Twap.DefaultIntervals as real))
  {
    var request := Twap.TwapRequest(symbol, side, quantity, None, None);
    if !client.Null? {
      Twap.TwapDefaults(client, symbol, side, quantity);
    }
    var run := Twap.ExecuteTwap(client, gateway, request);
    r := AsChunks(run);
  }

  /** The TWAP node's outcome with the default schedule of five chunks sixty seconds apart. */
  ghost predicate TwapOutcome(r: Run<Execution>, client: Value, gateway: Gateway, chunk: OrderPayload) {
    var n, d := Twap.DefaultIntervals, Twap.DefaultDelay;
    && (client.Null? ==> r == Run(Failure(ClientUnavailable), []))
    && (!client.Null? && !client.Client? ==> r == Run(Failure(NotAClient), []))
    && (client.Client? && Twap.Completes(gateway, n, d) ==>
          r.result.Success? && r.result.value.Chunks? && Twap.AcksOf(gateway, n, r.result.value.acks) &&
          r.trace == Twap.Paced(chunk, d, n))
    && (client.Client? ==> forall k: nat :: Twap.FirstStop(gateway, n, d, k) ==>
          r == Run(Failure(Twap.StopError(gateway, k)), Twap.Paced(chunk, d, k + 1)))
  }
}

=== FILE: limit_orders.dfy ===
/** `execute_limit_order`: one LIMIT order behind a client guard. */
module LimitOrders {
  import opened Results
  import opened Errors
  import opened Values
  import opened Exchange

  /** The time in force used when the caller gives none. */
  const DefaultTimeInForce: string := "GTC"

  /** `{symbol, side, type: LIMIT, quantity, price, timeInForce}` */
  function LimitOrder(symbol: string, side: string, quantity: real, price: real, timeInForce: string): (p: OrderPayload)
    ensures p.orderType == "LIMIT" && p.symbol == symbol && p.side == side && p.quantity == quantity
    ensures p.price == Some(price) && p.timeInForce == Some(timeInForce)
    ensures p.stopPrice.None? && p.clientOrderId.None?
  {
    OrderPayload(symbol, side, "LIMIT", quantity, Some(price), None, Some(timeInForce), None)
  }

  /**
   * Raises before any call when the client is `None`; otherwise submits the
   * LIMIT payload once (GTC unless `timeInForce` is given) and returns the
   * response unchanged or re-raises the failure.
   */
  function ExecuteLimit(client: Value, gateway: Gateway, symbol: string, side: string, quantity: real, price: real,
                        timeInForce: Option<string>): (r: Run<Ack>)
    ensures client.Null? ==> r == Run(Failure(ClientUnavailable), [])
    ensures client.Client? ==>
      r.trace == [Submit(LimitOrder(symbol, side, quantity, price,
                                    if timeInForce.Some? then timeInForce.value else DefaultTimeInForce))]
    ensures !client.Client? ==> r.trace == [] && r.result.Failure?
    ensures r.result.Success? <==> client.Client? && gateway(0).Accept?
    ensures r.result.Success? ==> r.result.value == gateway(0).ack
    ensures client.Client? && gateway(0).Reject? ==> r.result == Failure(Rejected(gateway(0).reason))
  {
    if client.Null? then Run(Failure(ClientUnavailable), [])
    else
      var tif := match timeInForce case Some(t) => t case None => DefaultTimeInForce;
      Place(client, gateway, 0, LimitOrder(symbol, side, quantity, price, tif))
  }

  /** Leaving out the time in force is the same as asking for GTC. */
  lemma LimitDefaultsToGtc(client: Value, gateway: Gateway, symbol: string, side: string, quantity: real, price: real)
    ensures ExecuteLimit(client, gateway, symbol, side, quantity, price, None) ==
            ExecuteLimit(client, gateway, symbol, side, quantity, price, Some("GTC"))
  {
  }

  /** Only the reply to the first call matters: the order is placed at most once. */
  lemma LimitSingleCall(client: Value, g1: Gateway, g2: Gateway, symbol: string, side: string, quantity: real,
                        price: real, timeInForce: Option<string>)
    requires g1(0) == g2(0)
    ensures ExecuteLimit(client, g1, symbol, side, quantity, price, timeInForce) ==
            ExecuteLimit(client, g2, symbol, side, quantity, price, timeInForce)
  {
  }
}

=== FILE: market_orders.dfy ===
/** `execute_market_order`: one MARKET order built from its arguments as given. */
module MarketOrders {
  import opened Results
  import opened Errors
  import opened Values
  import opened Exchange

  /**
   * Submits `{symbol, side, type: MARKET, quantity}` once and returns the
   * exchange's response unchanged; there is no client guard at this layer,
   * so anything but the client object fails when the call is attempted.
   */
  function ExecuteMarket(client: Value, gateway: Gateway, symbol: string, side: string, quantity: real): (r: Run<Ack>)
    ensures r.trace == if client.Client? then [Submit(MarketOrder(symbol, side, quantity))] else []
    ensures r.result.Success? <==> client.Client? && gateway(0).Accept?
    ensures r.result.Success? ==> r.result.value == gateway(0).ack
    ensures client.Client? && gateway(0).Reject? ==> r.result == Failure(Rejected(gateway(0).reason))
    ensures !client.Client? ==> r.result == Failure(NotAClient)
  {
    Place(client, gateway, 0, MarketOrder(symbol, side, quantity))
  }

  /** Only the reply to the first call matters: the order is placed exactly once. */
  lemma MarketSingleCall(client: Value, g1: Gateway, g2: Gateway, symbol: string, side: string, quantity: real)
    requires g1(0) == g2(0)
    ensures ExecuteMarket(client, g1, symbol, side, quantity) == ExecuteMarket(client, g2, symbol, side, quantity)
  {
  }
}

=== FILE: oco.dfy ===
/**
 * `execute_oco_order`: a synthesised one-cancels-the-other pair, placed as a
 * take-profit leg followed by a stop-market leg on the opposite side, both
 * tagged with one group id.
 */
module Oco {
  import opened Results
  import opened Errors
  import opened Values
  import opened Exchange

  /** The side that closes a position opened on `side`: anything but "BUY" closes with a buy. */
  function ExitSide(side: string): (exit: string)
    ensures exit == "SELL" <==> side == "BUY"
    ensures exit == "BUY" || exit == "SELL"
  {
    if side == "BUY" then "SELL" else "BUY"
  }

  /** `str(uuid)[:12]`: at most the first twelve characters of the identifier text. */
  function GroupId(uuid: string): (id: string)
    ensures |id| == if |uuid| < 12 then |uuid| else 12
    ensures id <= uuid
  {
    if |uuid| < 12 then uuid else uuid[..12]
  }

  /** The take-profit leg: trigger and limit both at the target price, good till cancelled. */
  function TakeProfitLeg(symbol: string, exit: string, quantity: real, target: real, groupId: string): (p: OrderPayload)
    ensures p.orderType == "TAKE_PROFIT" && p.symbol == symbol && p.side == exit && p.quantity == quantity
    ensures p.price == Some(target) && p.stopPrice == Some(target) && p.timeInForce == Some("GTC")
    ensures p.clientOrderId == Some("TP-" + groupId)
  {
    OrderPayload(symbol, exit, "TAKE_PROFIT", quantity, Some(target), Some(target), Some("GTC"), Some("TP-" + groupId))
  }

  /** The stop-loss leg: a stop-market order with only a trigger price. */
  function StopLossLeg(symbol: string, exit: string, quantity: real, stop: real, groupId: string): (p: OrderPayload)
    ensures p.orderType == "STOP_MARKET" && p.symbol == symbol && p.side == exit && p.quantity == quantity
    ensures p.stopPrice == Some(stop) && p.price.None? && p.timeInForce.None?
    ensures p.clientOrderId == Some("SL-" + groupId)
  {
    OrderPayload(symbol, exit, "STOP_MARKET", quantity, None, Some(stop), None, Some("SL-" + groupId))
  }

  /** The record returned when both legs are accepted. */
  datatype OcoFill = OcoFill(groupId: string, takeProfit: Ack, stopLoss: Ack)

  /**
   * Raises before any call when the client is `None`. Otherwise places the
   * take-profit leg and, only when it was accepted, the stop-loss leg; the
   * first failure is re-raised and no partial result is returned.
   */
  function ExecuteOco(client: Value, gateway: Gateway, uuid: string, symbol: string, side: string,
                      quantity: real, takeProfit: real, stop: real): (r: Run<OcoFill>)
    ensures client.Null? ==> r == Run(Failure(ClientUnavailable), [])
    ensures !client.Client? ==> r.trace == [] && r.result.Failure?
    ensures client.Client? ==>
      var exit, id := ExitSide(side), GroupId(uuid);
      var tp, sl := TakeProfitLeg(symbol, exit, quantity, takeProfit, id), StopLossLeg(symbol, exit, quantity, stop, id);
      r.trace == if gateway(0).Accept? then [Submit(tp), Submit(sl)] else [Submit(tp)]
    ensures r.result.Success? <==> client.Client? && gateway(0).Accept? && gateway(1).Accept?
    ensures r.result.Success? ==> r.result.value == OcoFill(GroupId(uuid), gateway(0).ack, gateway(1).ack)
    ensures client.Client? && gateway(0).Reject? ==> r.result == Failure(Rejected(gateway(0).reason))
    ensures client.Client? && gateway(0).Accept? && gateway(1).Reject? ==>
      r.result == Failure(Rejected(gateway(1).reason))
  {
    if client.Null? then Run(Failure(ClientUnavailable), [])
    else
      var id := GroupId(uuid);
      var exit := ExitSide(side);
      var first := Place(client, gateway, 0, TakeProfitLeg(symbol, exit, quantity, takeProfit, id));
      match first.result
      case Failure(e) => Run(Failure(e), first.trace)
      case Success(tpAck) =>
        var second := Place(client, gateway, 1, StopLossLeg(symbol, exit, quantity, stop, id));
        match second.result
        case Failure(e) => Run(Failure(e), first.trace + second.trace)
        case Success(slAck) => Run(Success(OcoFill(id, tpAck, slAck)), first.trace + second.trace)
  }

  /** The exit side of a BUY or SELL is the other one, so exiting twice comes back. */
  lemma ExitSideFlips(side: string)
    requires side == "BUY" || side == "SELL"
    ensures ExitSide(side) != side
    ensures ExitSide(ExitSide(side)) == side
  {
  }

  /** Only exactly "BUY" sells: a lower-case "buy" is treated as a sell side and exits with a buy. */
  lemma LowerCaseBuyExitsWithBuy()
    ensures ExitSide("buy") == "BUY"
  {
  }

  /** Both legs go out on the same exit side and share the group id behind their client ids. */
  lemma LegsShareGroup(symbol: string, side: string, quantity: real, takeProfit: real, stop: real, uuid: string)
    ensures var exit, id := ExitSide(side), GroupId(uuid);
      var tp, sl := TakeProfitLeg(symbol, exit, quantity, takeProfit, id), StopLossLeg(symbol, exit, quantity, stop, id);
      && tp.side == sl.side == exit
      && tp.clientOrderId.Some? && sl.clientOrderId.Some?
      && tp.clientOrderId.value[3..] == sl.clientOrderId.value[3..] == id
      && tp.clientOrderId.value[..3] != sl.clientOrderId.value[..3]
  {
    var id := GroupId(uuid);
    assert ("TP-" + id)[3..] == id;
    assert ("SL-" + id)[3..] == id;
    assert ("TP-" + id)[0] != ("SL-" + id)[0];
  }

  /** The stop-loss leg is never submitted unless the take-profit leg was accepted. */
  lemma StopLossOnlyAfterTakeProfit(client: Value, gateway: Gateway, uuid: string, symbol: string, side: string,
                                    quantity: real, takeProfit: real, stop: real)
    ensures var r := ExecuteOco(client, gateway, uuid, symbol, side, quantity, takeProfit, stop);
      && |r.trace| <= 2
      && (|r.trace| == 2 ==> client.Client? && gateway(0).Accept?)
      && (forall i :: 0 <= i < |r.trace| ==> r.trace[i].Submit? && r.trace[i].order.orderType == ["TAKE_PROFIT", "STOP_MARKET"][i])
  {
  }

  /** Only the replies to the first two calls matter. */
  lemma OcoTwoCalls(client: Value, g1: Gateway, g2: Gateway, uuid: string, symbol: string, side: string,
                    quantity: real, takeProfit: real, stop: real)
    requires g1(0) == g2(0) && g1(1) == g2(1)
    ensures ExecuteOco(client, g1, uuid, symbol, side, quantity, takeProfit, stop) ==
            ExecuteOco(client, g2, uuid, symbol, side, quantity, takeProfit, stop)
  {
  }
}

=== FILE: results.dfy ===
/** Failure-compatible wrappers used by every module of the order pipeline. */
module Results {

  datatype Option<+T> = None | Some(value: T)

  /** The outcome of an operation that either yields a value or raises an error. */
  datatype Result<+T, +E> = Success(value: T) | Failure(error: E) {

    predicate IsFailure() {
      Failure?
    }

    function PropagateFailure<U>(): Result<U, E>
      requires Failure?
    {
      Failure(error)
    }

    function Extract(): T
      requires Success?
    {
      value
    }
  }
}

=== FILE: stop_limit.dfy ===
/** `execute_stop_limit_order`: one STOP order carrying a trigger and a limit price. */
module StopLimit {
  import opened Results
  import opened Errors
  import opened Values
  import opened Exchange

  /** `{symbol, side, type: STOP, quantity, price: limit, stopPrice: stop, timeInForce: GTC}` */
  function StopLimitOrder(symbol: string, side: string, quantity: real, stopPrice: real, limitPrice: real): (p: OrderPayload)
    ensures p.orderType == "STOP" && p.symbol == symbol && p.side == side && p.quantity == quantity
    ensures p.price == Some(limitPrice) && p.stopPrice == Some(stopPrice)
    ensures p.timeInForce == Some("GTC") && p.clientOrderId.None?
  {
    OrderPayload(symbol, side, "STOP", quantity, Some(limitPrice), Some(stopPrice), Some("GTC"), None)
  }

  /**
   * Raises before any call when the client is `None`; otherwise submits the
   * STOP payload once, with the arguments taken in the order quantity, stop
   * price, limit price, and returns the response unchanged or re-raises.
   */
  function ExecuteStopLimit(client: Value, gateway: Gateway, symbol: string, side: string, quantity: real,
                            stopPrice: real, limitPrice: real): (r: Run<Ack>)
    ensures client.Null? ==> r == Run(Failure(ClientUnavailable), [])
    ensures client.Client? ==> r.trace == [Submit(StopLimitOrder(symbol, side, quantity, stopPrice, limitPrice))]
    ensures !client.Client? ==> r.trace == [] && r.result.Failure?
    ensures r.result.Success? <==> client.Client? && gateway(0).Accept?
    ensures r.result.Success? ==> r.result.value == gateway(0).ack
    ensures client.Client? && gateway(0).Reject? ==> r.result == Failure(Rejected(gateway(0).reason))
  {
    if client.Null? then Run(Failure(ClientUnavailable), [])
    else Place(client, gateway, 0, StopLimitOrder(symbol, side, quantity, stopPrice, limitPrice))
  }

  /** Only the reply to the first call matters: the order is placed at most once. */
  lemma StopLimitSingleCall(client: Value, g1: Gateway, g2: Gateway, symbol: string, side: string, quantity: real,
                            stopPrice: real, limitPrice: real)
    requires g1(0) == g2(0)
    ensures ExecuteStopLimit(client, g1, symbol, side, quantity, stopPrice, limitPrice) ==
            ExecuteStopLimit(client, g2, symbol, side, quantity, stopPrice, limitPrice)
  {
  }
}

=== FILE: text.dfy ===
/**
 * The string operations the validator applies: Python's `str.strip()`,
 * `str.upper()` and `str.lower()`. Whitespace is Python's `str.isspace`
 * set; case mapping covers the ASCII letters only.
 */
module Text {

  predicate IsSpace(c: char) {
    || c == ' '
    || ('\t' <= c <= '\r')
    || ('\U{1c}' <= c <= '\U{1f}')
    || c == '\U{85}' || c == '\U{a0}' || c == '\U{1680}'
    || ('\U{2000}' <= c <= '\U{200a}')
    || c == '\U{2028}' || c == '\U{2029}' || c == '\U{202f}' || c == '\U{205f}' || c == '\U{3000}'
  }

  /** Neither end of `s` is whitespace. */
  predicate IsTrimmed(s: string) {
    |s| == 0 || (!IsSpace(s[0]) && !IsSpace(s[|s| - 1]))
  }

  predicate IsLowerChar(c: char) { 'a' <= c <= 'z' }
  predicate IsUpperChar(c: char) { 'A' <= c <= 'Z' }

  /** No ASCII upper-case letter occurs in `s`. */
  predicate IsLower(s: string) {
    forall i :: 0 <= i < |s| ==> !IsUpperChar(s[i])
  }

  /** No ASCII lower-case letter occurs in `s`. */
  predicate IsUpper(s: string) {
    forall i :: 0 <= i < |s| ==> !IsLowerChar(s[i])
  }

  function TrimStart(s: string): (r: string)
    ensures |r| <= |s| && r == s[|s| - |r|..]
    ensures forall i :: 0 <= i < |s| - |r| ==> IsSpace(s[i])
    ensures |r| == 0 || !IsSpace(r[0])
  {
    if |s| > 0 && IsSpace(s[0]) then TrimStart(s[1..]) else s
  }

  function TrimEnd(s: string): (r: string)
    ensures |r| <= |s| && r == s[..|r|]
    ensures forall i :: |r| <= i < |s| ==> IsSpace(s[i])
    ensures |r| == 0 || !IsSpace(r[|r| - 1])
  {
    if |s| > 0 && IsSpace(s[|s| - 1]) then TrimEnd(s[..|s| - 1]) else s
  }

  /** `s.strip()`: the infix of `s` left once leading and trailing whitespace is gone. */
  function Strip(s: string): (r: string)
    ensures IsTrimmed(r)
    ensures |r| <= |s|
    ensures r == [] <==> forall i :: 0 <= i < |s| ==> IsSpace(s[i])
    ensures exists i, j :: Margins(s, i, j) && r == s[i..j]
  {
    var t := TrimStart(s);
    var r := TrimEnd(t);
    assert |r| > 0 ==> r[0] == t[0];
    assert r == [] ==> t == [];
    assert |r| > 0 ==> !IsSpace(s[|s| - |t|]);
    TrimmedInfix(s, t, r);
    r
  }

  /** `s[..i]` and `s[j..]` are all whitespace. */
  predicate Margins(s: string, i: int, j: int) {
    && 0 <= i <= j <= |s|
    && (forall k :: 0 <= k < i ==> IsSpace(s[k]))
    && (forall k :: j <= k < |s| ==> IsSpace(s[k]))
  }

  /** A prefix of a suffix of `s`, cut at whitespace on both sides, is a margined infix. */
  lemma TrimmedInfix(s: string, t: string, r: string)
    requires |t| <= |s| && t == s[|s| - |t|..] && forall k :: 0 <= k < |s| - |t| ==> IsSpace(s[k])
    requires |r| <= |t| && r == t[..|r|] && forall k :: |r| <= k < |t| ==> IsSpace(t[k])
    ensures Margins(s, |s| - |t|, |s| - |t| + |r|) && r == s[|s| - |t|..|s| - |t| + |r|]
  {
    var i := |s| - |t|;
    forall k | i + |r| <= k < |s|
      ensures IsSpace(s[k])
    {
      assert s[k] == t[k - i];
    }
  }

  function UpperChar(c: char): char {
    if IsLowerChar(c) then (c as int - 32) as char else c
  }

  function LowerChar(c: char): char {
    if IsUpperChar(c) then (c as int + 32) as char else c
  }

  /** `s.upper()` */
  function Upper(s: string): (r: string)
    ensures |r| == |s|
    ensures IsUpper(r)
    ensures forall i :: 0 <= i < |s| ==> r[i] == UpperChar(s[i])
  {
    seq(|s|, i requires 0 <= i < |s| => UpperChar(s[i]))
  }

  /** `s.lower()` */
  function Lower(s: string): (r: string)
    ensures |r| == |s|
    ensures IsLower(r)
    ensures forall i :: 0 <= i < |s| ==> r[i] == LowerChar(s[i])
  {
    seq(|s|, i requires 0 <= i < |s| => LowerChar(s[i]))
  }

  /** Stripping a string that has no whitespace at either end changes nothing. */
  lemma StripTrimmed(s: string)
    requires IsTrimmed(s)
    ensures Strip(s) == s
  {
    if |s| > 0 {
      assert !IsSpace(s[0]);
      assert TrimStart(s) == s;
      assert !IsSpace(s[|s| - 1]);
      assert TrimEnd(s) == s;
    }
  }

  /** Text with a non-blank character keeps one after trimming. */
  lemma StripNonBlank(s: string)
    requires exists i :: 0 <= i < |s| && !IsSpace(s[i])
    ensures Strip(s) != []
  {
  }

  lemma StripIdempotent(s: string)
    ensures Strip(Strip(s)) == Strip(s)
  {
    StripTrimmed(Strip(s));
  }

  lemma UpperIdempotent(s: string)
    ensures Upper(Upper(s)) == Upper(s)
  {
  }

  lemma LowerIdempotent(s: string)
    ensures Lower(Lower(s)) == Lower(s)
  {
  }

  /** Case mapping never turns a letter into whitespace or back. */
  lemma UpperKeepsTrimmed(s: string)
    requires IsTrimmed(s)
    ensures IsTrimmed(Upper(s))
  {
  }

  lemma LowerKeepsTrimmed(s: string)
    requires IsTrimmed(s)
    ensures IsTrimmed(Lower(s))
  {
  }

  /** Normalising twice, as `s.strip().upper()` and then again, is normalising once. */
  lemma StripUpperIdempotent(s: string)
    ensures Upper(Strip(Upper(Strip(s)))) == Upper(Strip(s))
  {
    UpperKeepsTrimmed(Strip(s));
    StripTrimmed(Upper(Strip(s)));
  }

  lemma StripLowerIdempotent(s: string)
    ensures Lower(Strip(Lower(Strip(s)))) == Lower(Strip(s))
  {
    LowerKeepsTrimmed(Strip(s));
    StripTrimmed(Lower(Strip(s)));
  }

  /** A string that is already trimmed and lower-case is a fixed point of `.strip().lower()`. */
  lemma NormalLowerFixed(s: string)
    requires IsTrimmed(s) && IsLower(s)
    ensures Lower(Strip(s)) == s
  {
    StripTrimmed(s);
  }

  /** A string that is already trimmed and upper-case is a fixed point of `.strip().upper()`. */
  lemma NormalUpperFixed(s: string)
    requires IsTrimmed(s) && IsUpper(s)
    ensures Upper(Strip(s)) == s
  {
    StripTrimmed(s);
  }

  /** Lower-casing text that has no upper-case letter changes nothing. */
  lemma LowerFixed(s: string)
    requires IsLower(s)
    ensures Lower(s) == s
  {
    assert forall i :: 0 <= i < |s| ==> Lower(s)[i] == s[i];
  }
}

=== FILE: twap.dfy ===
/**
 * `execute_twap`: a total quantity split into equal MARKET chunks placed one
 * after another, with a pause between consecutive chunks, stopping at the
 * first failure.
 */
module Twap {
  import opened Results
  import opened Errors
  import opened Values
  import opened Exchange

  /** The number of chunks when the request does not say. */
  const DefaultIntervals: int := 5

  /** The pause between chunks, in seconds, when the request does not say. */
  const DefaultDelay: real := 60.0

  /**
   * The fields `execute_twap` reads from its state: the two tuning fields
   * are `None` when the key is absent (and `Some(Null)` when it holds `None`).
   */
  datatype TwapRequest = TwapRequest(symbol: string, side: string, total: real,
                                     intervals: Option<Value>, delay: Option<Value>)

  /** The schedule the setup settles on. */
  datatype Plan = Plan(chunks: nat, delay: real)

  /** `state.get("twap_intervals", 5)` */
  function IntervalsField(req: TwapRequest): Value {
    match req.intervals case Some(v) => v case None => Num(DefaultIntervals as real)
  }

  /** `state.get("twap_delay", 60)` */
  function DelayField(req: TwapRequest): Value {
    match req.delay case Some(v) => v case None => Num(DefaultDelay)
  }

  /**
   * The setup of `execute_twap`, in its order: `int()` of the intervals,
   * `float()` of the delay, the `intervals <= 0` guard, then the client guard.
   */
  function TwapPlan(client: Value, req: TwapRequest): (r: Result<Plan, Error>)
    ensures r.Success? <==>
      && ToInt(IntervalsField(req)).Some? && ToInt(IntervalsField(req)).value > 0
      && ToFloat(DelayField(req)).Some? && !client.Null?
    ensures r.Success? ==>
      r.value == Plan(ToInt(IntervalsField(req)).value, ToFloat(DelayField(req)).value)
    ensures (ToInt(IntervalsField(req)).Some? && ToInt(IntervalsField(req)).value <= 0 &&
             ToFloat(DelayField(req)).Some?) ==> r == Failure(IntervalsNotPositive)
  {
    match ToInt(IntervalsField(req))
    case None => Failure(NotAnInteger("twap_intervals"))
    case Some(n) =>
      match ToFloat(DelayField(req))
      case None => Failure(NotNumeric("twap_delay"))
      case Some(d) =>
        if n <= 0 then Failure(IntervalsNotPositive)
        else if client.Null? then Failure(ClientUnavailable)
        else Success(Plan(n, d))
  }

  /** With neither tuning field given, five chunks one minute apart. */
  lemma TwapDefaults(client: Value, symbol: string, side: string, total: real)
    requires !client.Null?
    ensures TwapPlan(client, TwapRequest(symbol, side, total, None, None)) == Success(Plan(5, 60.0))
  {
  }

  /** `m` submissions of `chunk` with a pause of `d` between consecutive ones and none after the last. */
  function Paced(chunk: OrderPayload, d: real, m: nat): seq<Event>
    requires m >= 1
  {
    if m == 1 then [Submit(chunk)] else Paced(chunk, d, m - 1) + [Wait(d), Submit(chunk)]
  }

  /** The trace before chunk `i` is submitted, when more chunks follow it. */
  function Lead(chunk: OrderPayload, d: real, i: nat): seq<Event> {
    if i == 0 then [] else Paced(chunk, d, i) + [Wait(d)]
  }

  /** Chunk `i` of `n` ends the run: it is rejected, or the pause after it is negative. */
  predicate StopsAt(gateway: Gateway, n: nat, d: real, i: nat) {
    gateway(i).Reject? || (i + 1 < n && d < 0.0)
  }

  /** The error a run stopped at chunk `i` raises. */
  function StopError(gateway: Gateway, i: nat): Error {
    if gateway(i).Reject? then Rejected(gateway(i).reason) else NegativeDelay
  }

  /** No chunk of `n` ends the run early. */
  predicate Completes(gateway: Gateway, n: nat, d: real) {
    forall i :: 0 <= i < n ==> !StopsAt(gateway, n, d, i)
  }

  /** Chunk `k` is the first of `n` to end the run. */
  predicate FirstStop(gateway: Gateway, n: nat, d: real, k: nat) {
    k < n && StopsAt(gateway, n, d, k) && forall i :: 0 <= i < k ==> !StopsAt(gateway, n, d, i)
  }

  /** The responses of the first `n` calls, all of them accepted. */
  predicate AcksOf(gateway: Gateway, n: nat, acks: seq<Ack>) {
    |acks| == n && forall i :: 0 <= i < n ==> gateway(i).Accept? && acks[i] == gateway(i).ack
  }

  /**
   * The placement loop: `chunk` submitted `n` times through the client,
   * pausing `d` seconds between consecutive calls, stopping at the first
   * rejection or at the first pause that cannot be taken.
   */
  method PlaceChunks(client: Value, gateway: Gateway, chunk: OrderPayload, n: nat, d: real) returns (r: Run<seq<Ack>>)
    requires client.Client? && n >= 1
    ensures Completes(gateway, n, d) ==>
      r.result.Success? && AcksOf(gateway, n, r.result.value) && r.trace == Paced(chunk, d, n)
    ensures forall k: nat :: FirstStop(gateway, n, d, k) ==>
      r == Run(Failure(StopError(gateway, k)), Paced(chunk, d, k + 1))
  {
    var acks: seq<Ack> := [];
    var trace: seq<Event> := [];
    var i := 0;
    while i < n
      invariant 0 <= i <= n
      invariant AcksOf(gateway, i, acks)
      invariant forall j :: 0 <= j < i ==> !StopsAt(gateway, n, d, j)
      invariant i < n ==> trace == Lead(chunk, d, i)
      invariant i == n ==> trace == Paced(chunk, d, n)
    {
      var placed := Place(client, gateway, i, chunk);
      trace := trace + placed.trace;
      assert trace == Paced(chunk, d, i + 1);
      assert forall k: nat :: FirstStop(gateway, n, d, k) && k != i ==> !StopsAt(gateway, n, d, i);
      if placed.result.Failure? {
        assert FirstStop(gateway, n, d, i);
        return Run(Failure(placed.result.error), trace);
      }
      acks := acks + [placed.result.value];
      if i + 1 < n {
        if d < 0.0 {
          assert FirstStop(gateway, n, d, i);
          return Run(Failure(NegativeDelay), trace);
        }
        trace := trace + [Wait(d)];
      }
      i := i + 1;
    }
    assert forall k: nat :: !FirstStop(gateway, n, d, k);
    return Run(Success(acks), trace);
  }

  /**
   * `execute_twap(state)` with the module's client as `client`. A failed
   * setup places nothing. Otherwise `total / intervals` is submitted as a
   * MARKET order `intervals` times, pausing between chunks; the responses
   * come back in submission order, and the first failure ends the run and
   * is re-raised without them.
   */
  method ExecuteTwap(client: Value, gateway: Gateway, req: TwapRequest) returns (r: Run<seq<Ack>>)
    ensures TwapPlan(client, req).Failure? ==> r == Run(Failure(TwapPlan(client, req).error), [])
    ensures TwapPlan(client, req).Success? && !client.Client? ==> r == Run(Failure(NotAClient), [])
    ensures TwapPlan(client, req).Success? && client.Client? ==>
      var n, d := TwapPlan(client, req).value.chunks, TwapPlan(client, req).value.delay;
      var chunk := MarketOrder(req.symbol, req.side, req.total / n as real);
      && (Completes(gateway, n, d) ==>
            r.result.Success? && AcksOf(gateway, n, r.result.value) && r.trace == Paced(chunk, d, n))
      && (forall k: nat :: FirstStop(gateway, n, d, k) ==>
            r == Run(Failure(StopError(gateway, k)), Paced(chunk, d, k + 1)))
  {
    var plan := TwapPlan(client, req);
    if plan.Failure? {
      return Run(Failure(plan.error), []);
    }
    if !client.Client? {
      return Run(Failure(NotAClient), []);
    }
    var n := plan.value.chunks;
    r := PlaceChunks(client, gateway, MarketOrder(req.symbol, req.side, req.total / n as real), n, plan.value.delay);
  }

  /** A chunk that stops the run has a first stopping chunk at or before it. */
  lemma {:induction false} FirstStopExists(gateway: Gateway, n: nat, d: real, k: nat)
    requires k < n && StopsAt(gateway, n, d, k)
    ensures exists j: nat :: j <= k && FirstStop(gateway, n, d, j)
    decreases k
  {
    if j :| 0 <= j < k && StopsAt(gateway, n, d, j) {
      FirstStopExists(gateway, n, d, j);
    } else {
      assert FirstStop(gateway, n, d, k);
    }
  }

  /** Every schedule either completes or has exactly one first stopping chunk, so the two cases of `ExecuteTwap` cover all runs. */
  lemma CompletesOrStops(gateway: Gateway, n: nat, d: real)
    ensures Completes(gateway, n, d) <==> forall k: nat :: !FirstStop(gateway, n, d, k)
    ensures forall j: nat, k: nat :: FirstStop(gateway, n, d, j) && FirstStop(gateway, n, d, k) ==> j == k
  {
    if !Completes(gateway, n, d) {
      var k :| 0 <= k < n && StopsAt(gateway, n, d, k);
      FirstStopExists(gateway, n, d, k);
    }
  }

  /** The orders of a paced trace are `m` copies of the chunk, with `m - 1` pauses and a submission last. */
  lemma {:induction false} PacedCounts(chunk: OrderPayload, d: real, m: nat)
    requires m >= 1
    ensures |Submitted(Paced(chunk, d, m))| == m
    ensures forall i :: 0 <= i < m ==> Submitted(Paced(chunk, d, m))[i] == chunk
    ensures Waits(Paced(chunk, d, m)) == m - 1
    ensures Paced(chunk, d, m)[|Paced(chunk, d, m)| - 1] == Submit(chunk)
  {
    if m > 1 {
      PacedCounts(chunk, d, m - 1);
      SubmittedAppend(Paced(chunk, d, m - 1), [Wait(d), Submit(chunk)]);
      WaitsAppend(Paced(chunk, d, m - 1), [Wait(d), Submit(chunk)]);
      assert Submitted([Wait(d), Submit(chunk)]) == [chunk];
      assert Waits([Wait(d), Submit(chunk)]) == 1;
    }
  }

  /** The summed quantity of a list of orders. */
  function TotalQuantity(orders: seq<OrderPayload>): real {
    if |orders| == 0 then 0.0 else TotalQuantity(orders[..|orders| - 1]) + orders[|orders| - 1].quantity
  }

  lemma {:induction false} CopiesTotal(orders: seq<OrderPayload>, q: real)
    requires forall i :: 0 <= i < |orders| ==> orders[i].quantity == q
    ensures TotalQuantity(orders) == |orders| as real * q
  {
    if |orders| > 0 {
      CopiesTotal(orders[..|orders| - 1], q);
    }
  }

  /** In exact arithmetic the chunks of a completed run add up to the requested total. */
  lemma ChunksSumToTotal(symbol: string, side: string, total: real, d: real, n: nat)
    requires n >= 1
    ensures TotalQuantity(Submitted(Paced(MarketOrder(symbol, side, total / n as real), d, n))) == total
  {
    var chunk := MarketOrder(symbol, side, total / n as real);
    PacedCounts(chunk, d, n);
    CopiesTotal(Submitted(Paced(chunk, d, n)), total / n as real);
  }
}

=== FILE: validators.dfy ===
/**
 * The order-request normaliser: resolves the order type and its required
 * fields, normalises symbol and side, coerces and filters the numeric fields,
 * and passes every other key of the request through unchanged.
 */
module Validators {
  import opened Results
  import opened Errors
  import opened Values
  import opened Filters
  import Text

  /** The keys `validate` may rewrite; every other key is copied as it came. */
  const NormalizedKeys: set<string> :=
    {"order_type", "symbol", "side", "quantity", "price", "stop_price", "reduce_only"}

  /** The canonical names a required-field list may contain. */
  const CanonicalFields: set<string> := {"symbol", "side", "quantity", "price", "stop_price"}

  const BaseFields: seq<string> := ["symbol", "side", "quantity"]

  /** `_to_float(v, field)` followed by the `<= 0` rejection every numeric field gets. */
  function Coerce(v: Value, field: string): (r: Result<real, Error>)
    ensures r.Success? <==> ToFloat(v).Some? && ToFloat(v).value > 0.0
    ensures r.Success? ==> r.value == ToFloat(v).value
    ensures ToFloat(v).None? ==> r == Failure(NotNumeric(field))
    ensures r.Failure? ==> r.error in {NotNumeric(field), NotPositive(field)}
  {
    match ToFloat(v)
    case None => Failure(NotNumeric(field))
    case Some(x) => if x <= 0.0 then Failure(NotPositive(field)) else Success(x)
  }

  /** `_normalize_side`: accepts exactly the texts that trim and upper-case to BUY or SELL. */
  function NormalizeSide(v: Value): (r: Result<string, Error>)
    ensures r.Success? ==> r.value == "BUY" || r.value == "SELL"
    ensures r.Success? <==> v.Str? && (Text.Upper(Text.Strip(v.s)) == "BUY" || Text.Upper(Text.Strip(v.s)) == "SELL")
    ensures r.Success? ==> r.value == Text.Upper(Text.Strip(v.s))
    ensures !Truthy(v) ==> r == Failure(MissingSide)
    ensures r.Failure? ==> r.error in {MissingSide, NotText("side"), InvalidSide}
  {
    if !Truthy(v) then
      assert v.Str? ==> |Text.Upper(Text.Strip(v.s))| == 0;
      Failure(MissingSide)
    else if !v.Str? then Failure(NotText("side"))
    else SideText(Text.Upper(Text.Strip(v.s)))
  }

  /** The membership test `_normalize_side` applies to the trimmed, upper-cased text. */
  function SideText(s: string): (r: Result<string, Error>)
    ensures r.Success? <==> s == "BUY" || s == "SELL"
    ensures r.Success? ==> r.value == s
    ensures r.Failure? ==> r.error == InvalidSide
  {
    if s == "BUY" || s == "SELL" then Success(s) else Failure(InvalidSide)
  }

  /** `_normalize_symbol`: the trimmed, upper-cased text of any non-empty string. */
  function NormalizeSymbol(v: Value): (r: Result<string, Error>)
    ensures r.Success? <==> v.Str? && |v.s| > 0
    ensures r.Success? ==> r.value == Text.Upper(Text.Strip(v.s))
    ensures r.Success? ==> Text.IsUpper(r.value) && Text.IsTrimmed(r.value) && |r.value| <= |v.s|
    ensures r.Success? ==> (r.value == [] <==> forall i :: 0 <= i < |v.s| ==> Text.IsSpace(v.s[i]))
    ensures !Truthy(v) ==> r == Failure(MissingSymbol)
    ensures r.Failure? ==> r.error in {MissingSymbol, NotText("symbol")}
  {
    if !Truthy(v) then Failure(MissingSymbol)
    else if !v.Str? then Failure(NotText("symbol"))
    else
      Text.UpperKeepsTrimmed(Text.Strip(v.s));
      Success(Text.Upper(Text.Strip(v.s)))
  }

  /**
   * `state.get("order_type") or state.get("type") or "market"`, trimmed and
   * lower-cased; the default is returned as it is, being its own normal form
   * (`MarketIsNormal`).
   */
  function OrderKind(state: State): (r: Result<string, Error>)
    ensures r.Success? ==> Text.IsLower(r.value) && Text.IsTrimmed(r.value)
    ensures !Truthy(Get(state, "order_type")) && !Truthy(Get(state, "type")) ==> r == Success("market")
    ensures var v := Or(Get(state, "order_type"), Get(state, "type"));
      Truthy(v) && v.Str? ==> r == Success(Text.Lower(Text.Strip(v.s)))
    ensures var v := Or(Get(state, "order_type"), Get(state, "type"));
      Truthy(v) && !v.Str? ==> r.Failure?
    ensures r.Failure? ==> r.error == NotText("order_type")
  {
    var v := Or(Get(state, "order_type"), Get(state, "type"));
    if !Truthy(v) then Success("market")
    else if v.Str? then
      Text.LowerKeepsTrimmed(Text.Strip(v.s));
      Success(Text.Lower(Text.Strip(v.s)))
    else Failure(NotText("order_type"))
  }

  /** Trimming and lower-casing the default order type leaves it unchanged. */
  lemma MarketIsNormal()
    ensures Text.Lower(Text.Strip("market")) == "market"
  {
    Text.NormalLowerFixed("market");
  }

  predicate NeedsPrice(kind: string) {
    kind == "limit" || kind == "stop_limit" || kind == "oco"
  }

  predicate NeedsStopPrice(kind: string) {
    kind == "stop_limit" || kind == "oco"
  }

  /** The table of `_required_fields_for_order_type`, with the base fields for unknown types. */
  function RequiredFor(kind: string): (fields: seq<string>)
    ensures |fields| >= 3 && fields[..3] == BaseFields
    ensures "price" in fields <==> NeedsPrice(kind)
    ensures "stop_price" in fields <==> NeedsStopPrice(kind)
    ensures forall f :: f in fields ==> f in CanonicalFields
    ensures !NeedsPrice(kind) ==> fields == BaseFields
  {
    if kind == "limit" then BaseFields + ["price"]
    else if kind == "stop_limit" then BaseFields + ["stop_price", "price"]
    else if kind == "oco" then BaseFields + ["price", "stop_price"]
    else BaseFields
  }

  /** `_required_fields_for_order_type`: trims and lower-cases the type, then looks it up. */
  function RequiredFields(orderType: string): (fields: seq<string>)
    ensures forall f :: f in fields ==> f in CanonicalFields
    ensures Text.IsLower(orderType) && Text.IsTrimmed(orderType) ==> fields == RequiredFor(orderType)
  {
    assert Text.IsLower(orderType) && Text.IsTrimmed(orderType) ==>
      Text.Lower(Text.Strip(orderType)) == orderType by {
      if Text.IsLower(orderType) && Text.IsTrimmed(orderType) {
        Text.NormalLowerFixed(orderType);
      }
    }
    RequiredFor(Text.Lower(Text.Strip(orderType)))
  }

  /** The synonyms tried, in order, for a missing required field. */
  function Aliases(field: string): seq<string> {
    if field == "stop_price" then ["stopPrice", "stop"]
    else if field == "price" then ["limit_price", "limitPrice", "limit"]
    else if field == "quantity" then ["qty", "amount", "quantity"]
    else if field == "symbol" then ["pair"]
    else if field == "side" then ["action"]
    else []
  }

  /** The first of `keys` present in `s`. */
  function FirstPresent(s: State, keys: seq<string>): (r: Option<string>)
    ensures r.Some? ==> r.value in keys && r.value in s
    ensures r.None? <==> forall i :: 0 <= i < |keys| ==> keys[i] !in s
  {
    if |keys| == 0 then None
    else if keys[0] in s then Some(keys[0])
    else
      var r := FirstPresent(s, keys[1..]);
      assert forall i :: 1 <= i < |keys| ==> keys[i] == keys[1..][i - 1];
      r
  }

  /**
   * The key `FirstPresent` picks is the earliest of `keys` present in `s`:
   * the one the source's `for alt in ...: if alt in state: ... break` stops at.
   */
  lemma {:induction false} FirstPresentIsFirst(s: State, keys: seq<string>)
    ensures FirstPresent(s, keys).Some? ==>
      exists i :: 0 <= i < |keys| && keys[i] == FirstPresent(s, keys).value && forall j :: 0 <= j < i ==> keys[j] !in s
    ensures forall i :: 0 <= i < |keys| && keys[i] in s && (forall j :: 0 <= j < i ==> keys[j] !in s) ==>
      FirstPresent(s, keys) == Some(keys[i])
  {
    if |keys| > 0 && keys[0] !in s {
      FirstPresentIsFirst(s, keys[1..]);
      var r := FirstPresent(s, keys[1..]);
      assert forall i :: 1 <= i < |keys| ==> keys[i] == keys[1..][i - 1];
      if r.Some? {
        var k :| 0 <= k < |keys[1..]| && keys[1..][k] == r.value && forall j :: 0 <= j < k ==> keys[1..][j] !in s;
        assert keys[k + 1] == r.value;
      }
    }
  }

  /** A required field counts as supplied when it or one of its synonyms is a key. */
  predicate Available(s: State, field: string) {
    field in s || FirstPresent(s, Aliases(field)).Some?
  }

  /** No canonical field is a synonym of another. */
  lemma AliasesAvoidCanonical(f: string, g: string)
    requires f in CanonicalFields && g in CanonicalFields && f != g
    ensures f !in Aliases(g)
  {
  }

  lemma {:induction false} FirstPresentIgnores(s: State, keys: seq<string>, k: string, v: Value)
    requires k !in keys
    ensures FirstPresent(s[k := v], keys) == FirstPresent(s, keys)
  {
    if |keys| > 0 {
      FirstPresentIgnores(s, keys[1..], k, v);
    }
  }

  /** Copying a synonym into field `f` leaves every other field exactly as available as before. */
  lemma AvailableAfterCopy(s: State, f: string, v: Value, g: string)
    requires f in CanonicalFields && g in CanonicalFields && f !in s && Available(s, f)
    ensures Available(s[f := v], g) <==> Available(s, g)
  {
    if f != g {
      AliasesAvoidCanonical(f, g);
      FirstPresentIgnores(s, Aliases(g), f, v);
    }
  }

  /**
   * The synonym resolution of `validate`: each missing required field is
   * filled from its first present synonym, or `MissingField` is raised for
   * the first field that has neither.
   */
  function Resolve(s: State, required: seq<string>, orderType: string): (r: Result<State, Error>)
    requires forall f :: f in required ==> f in CanonicalFields
    ensures r.Success? <==> forall f :: f in required ==> Available(s, f)
    ensures r.Success? ==> forall f :: f in required ==> f in r.value
    ensures r.Success? ==> forall k :: k in s ==> k in r.value && r.value[k] == s[k]
    ensures r.Success? ==> forall k :: k in r.value && k !in s ==>
      k in required && FirstPresent(s, Aliases(k)).Some? && r.value[k] == s[FirstPresent(s, Aliases(k)).value]
    ensures r.Failure? ==>
      r.error.MissingField? && r.error.orderType == orderType &&
      r.error.field in required && !Available(s, r.error.field)
    decreases |required|
  {
    if |required| == 0 then Success(s)
    else
      var f := required[0];
      assert forall g :: g in required <==> g == f || g in required[1..];
      if f in s then Resolve(s, required[1..], orderType)
      else match FirstPresent(s, Aliases(f))
        case None =>
          assert !Available(s, f);
          Failure(MissingField(orderType, f))
        case Some(alt) =>
          var s' := s[f := s[alt]];
          CopyKeepsAvailability(s, f, s[alt], required[1..]);
          var r := Resolve(s', required[1..], orderType);
          if r.Success? then
            CopyKeepsSources(s, f, s[alt], required[1..], r.value);
            r
          else r
  }

  /** The field `Resolve` reports missing is the first of `required` that is not available. */
  predicate FirstUnavailable(s: State, required: seq<string>, field: string) {
    exists i :: 0 <= i < |required| && required[i] == field && AvailableBefore(s, required, i)
  }

  /** Every field of `required` before index `i` is available. */
  predicate AvailableBefore(s: State, required: seq<string>, i: int)
    requires 0 <= i <= |required|
  {
    forall j :: 0 <= j < i ==> Available(s, required[j])
  }

  /** A missing-field error names the first required field, in table order, that has neither its key nor a synonym. */
  lemma {:induction false} ResolveReportsFirst(s: State, required: seq<string>, orderType: string)
    requires forall f :: f in required ==> f in CanonicalFields
    requires Resolve(s, required, orderType).Failure?
    ensures FirstUnavailable(s, required, Resolve(s, required, orderType).error.field)
    decreases |required|
  {
    var f := required[0];
    var rest := required[1..];
    var field := Resolve(s, required, orderType).error.field;
    assert forall g :: g in rest ==> g in CanonicalFields;
    if f in s {
      ResolveReportsFirst(s, rest, orderType);
      var i :| 0 <= i < |rest| && rest[i] == field && AvailableBefore(s, rest, i);
      AvailableShift(s, s, required, i);
    } else if FirstPresent(s, Aliases(f)).None? {
      assert required[0] == field && AvailableBefore(s, required, 0);
    } else {
      var s' := s[f := s[FirstPresent(s, Aliases(f)).value]];
      CopyKeepsAvailability(s, f, s[FirstPresent(s, Aliases(f)).value], rest);
      ResolveReportsFirst(s', rest, orderType);
      var i :| 0 <= i < |rest| && rest[i] == field && AvailableBefore(s', rest, i);
      AvailableShift(s, s', required, i);
    }
  }

  /** Availability of the head and of a prefix of the tail, carried over from `s'`, gives availability of a prefix of the whole list in `s`. */
  lemma AvailableShift(s: State, s': State, required: seq<string>, i: int)
    requires 0 <= i < |required| - 1
    requires Available(s, required[0])
    requires AvailableBefore(s', required[1..], i)
    requires forall g :: g in required[1..] ==> (Available(s', g) <==> Available(s, g))
    ensures AvailableBefore(s, required, i + 1)
  {
    forall j | 0 <= j < i + 1
      ensures Available(s, required[j])
    {
      if j > 0 {
        assert required[j] == required[1..][j - 1];
      }
    }
  }

  /** Copying a synonym into field `f` leaves the availability of the remaining required fields as it was. */
  lemma CopyKeepsAvailability(s: State, f: string, v: Value, rest: seq<string>)
    requires f in CanonicalFields && f !in s && Available(s, f)
    requires forall g :: g in rest ==> g in CanonicalFields
    ensures forall g :: g in rest ==> (Available(s[f := v], g) <==> Available(s, g))
  {
    forall g | g in rest
      ensures Available(s[f := v], g) <==> Available(s, g)
    {
      AvailableAfterCopy(s, f, v, g);
    }
  }

  /**
   * Keys that resolution of the remaining fields added after `f` was copied
   * hold their first present synonym in the request before the copy.
   */
  lemma CopyKeepsSources(s: State, f: string, v: Value, rest: seq<string>, out: State)
    requires f in CanonicalFields
    requires forall g :: g in rest ==> g in CanonicalFields
    requires forall k :: k in out && k !in s[f := v] ==>
      k in rest && FirstPresent(s[f := v], Aliases(k)).Some? &&
      out[k] == s[f := v][FirstPresent(s[f := v], Aliases(k)).value]
    ensures forall k :: k in out && k !in s && k != f ==>
      FirstPresent(s, Aliases(k)).Some? && out[k] == s[FirstPresent(s, Aliases(k)).value]
  {
    forall k | k in out && k !in s && k != f
      ensures FirstPresent(s, Aliases(k)).Some? && out[k] == s[FirstPresent(s, Aliases(k)).value]
    {
      AliasesAvoidCanonical(f, k);
      FirstPresentIgnores(s, Aliases(k), f, v);
    }
  }

  /** `state.get(keys[0]) or state.get(keys[1]) or ...` */
  function FirstTruthy(s: State, keys: seq<string>): (v: Value)
    requires |keys| > 0
    ensures Truthy(v) <==> exists i :: 0 <= i < |keys| && Truthy(Get(s, keys[i]))
    ensures Truthy(v) ==>
      exists i :: 0 <= i < |keys| && v == Get(s, keys[i]) && forall j :: 0 <= j < i ==> !Truthy(Get(s, keys[j]))
    ensures !Truthy(v) ==> v == Get(s, keys[|keys| - 1])
  {
    if |keys| == 1 then Get(s, keys[0])
    else
      var rest := FirstTruthy(s, keys[1..]);
      assert forall i :: 1 <= i < |keys| ==> keys[i] == keys[1..][i - 1];
      assert !Truthy(Get(s, keys[0])) && Truthy(rest) ==>
        exists i :: 0 <= i < |keys| && rest == Get(s, keys[i]) && forall j :: 0 <= j < i ==> !Truthy(Get(s, keys[j])) by {
        if !Truthy(Get(s, keys[0])) && Truthy(rest) {
          var k :| 0 <= k < |keys[1..]| && rest == Get(s, keys[1..][k]) &&
            forall j :: 0 <= j < k ==> !Truthy(Get(s, keys[1..][j]));
          assert rest == Get(s, keys[k + 1]);
        }
      }
      Or(Get(s, keys[0]), rest)
  }

  /** `state.get("symbol") or state.get("pair")`: the value the symbol is read from. */
  function SymbolField(s: State): Value {
    Or(Get(s, "symbol"), Get(s, "pair"))
  }

  /** `state.get("side") or state.get("action")`: the value the side is read from. */
  function SideField(s: State): Value {
    Or(Get(s, "side"), Get(s, "action"))
  }

  /** The keys whose presence makes `validate` read a quantity, in the order it tries them. */
  const QuantityKeys: seq<string> := ["quantity", "qty", "amount"]

  predicate HasQuantity(s: State) {
    "quantity" in s || "qty" in s || "amount" in s
  }

  /** The first truthy quantity value, as `validate` picks it. */
  function RawQuantity(s: State): Value {
    FirstTruthy(s, QuantityKeys)
  }

  /**
   * A quantity `validate` may emit: non-negative, on the LOT_SIZE step grid
   * when there is one, and, for conforming metadata, positive and left
   * unchanged by a second pass of the filter.
   */
  predicate QuantityOk(q: real, filters: Metadata) {
    && q >= 0.0
    && (LotRule(filters).Some? && LotRule(filters).value.increment > 0.0 ==>
          OnGrid(q, LotRule(filters).value.increment))
    && (Conforming(filters) ==> q > 0.0 && ApplyLotSize(q, filters) == Success(q))
  }

  /** The same for a price or stop price and the PRICE_FILTER tick grid. */
  predicate PriceOk(p: real, filters: Metadata) {
    && p >= 0.0
    && (PriceRule(filters).Some? && PriceRule(filters).value.increment > 0.0 ==>
          OnGrid(p, PriceRule(filters).value.increment))
    && (Conforming(filters) ==> p > 0.0 && ApplyPriceFilter(p, filters) == Success(p))
  }

  /** The quantity block of `validate`: coerce, reject non-positive, apply LOT_SIZE. */
  function QuantityOf(s: State, filters: Metadata): (r: Result<real, Error>)
    ensures r.Success? ==> QuantityOk(r.value, filters)
    ensures !HasQuantity(s) ==> r == Failure(MissingQuantity)
    ensures HasQuantity(s) && Coerce(RawQuantity(s), "quantity").Failure? ==>
      r == Failure(Coerce(RawQuantity(s), "quantity").error)
    ensures HasQuantity(s) && Coerce(RawQuantity(s), "quantity").Success? ==>
      r == ApplyLotSize(Coerce(RawQuantity(s), "quantity").value, filters)
    ensures r.Failure? ==> !r.error.MissingField?
  {
    if HasQuantity(s) then
      var q :- Coerce(RawQuantity(s), "quantity");
      var rounded := ApplyLotSize(q, filters);
      assert rounded.Success? && Conforming(filters) ==>
        rounded.value > 0.0 && ApplyLotSize(rounded.value, filters) == rounded by {
        if rounded.Success? && Conforming(filters) {
          LotSizeIdempotent(q, filters);
        }
      }
      rounded
    else Failure(MissingQuantity)
  }

  /** The price and stop-price blocks of `validate`: present only when one of their keys is. */
  function OptionalPrice(present: bool, raw: Value, field: string, filters: Metadata): (r: Result<Option<real>, Error>)
    ensures r.Success? ==> (r.value.Some? <==> present)
    ensures !present ==> r == Success(None)
    ensures present && Coerce(raw, field).Failure? ==> r == Failure(Coerce(raw, field).error)
    ensures present && Coerce(raw, field).Success? ==>
      var filtered := ApplyPriceFilter(Coerce(raw, field).value, filters);
      && (filtered.Failure? ==> r == Failure(filtered.error))
      && (filtered.Success? ==> r == Success(Some(filtered.value)))
    ensures r.Success? && r.value.Some? ==> PriceOk(r.value.value, filters)
    ensures r.Failure? ==> !r.error.MissingField?
  {
    if !present then Success(None)
    else
      var p :- Coerce(raw, field);
      var rounded :- ApplyPriceFilter(p, filters);
      assert Conforming(filters) ==> rounded > 0.0 && ApplyPriceFilter(rounded, filters) == Success(rounded) by {
        if Conforming(filters) {
          PriceFilterIdempotent(p, filters);
        }
      }
      Success(Some(rounded))
  }

  /** The keys whose presence makes `validate` read a price. */
  predicate HasPrice(s: State) {
    "price" in s || "limit_price" in s
  }

  /** The keys whose presence makes `validate` read a stop price. */
  predicate HasStopPrice(s: State) {
    "stop_price" in s || "stopPrice" in s || "stop" in s
  }

  /** The keys a price is read from, in the order `validate` tries them. */
  const PriceKeys: seq<string> := ["price", "limit_price", "limitPrice"]

  /** The keys a stop price is read from, in the order `validate` tries them. */
  const StopPriceKeys: seq<string> := ["stop_price", "stopPrice", "stop"]

  function PriceOf(s: State, filters: Metadata): Result<Option<real>, Error> {
    OptionalPrice(HasPrice(s), FirstTruthy(s, PriceKeys), "price", filters)
  }

  function StopPriceOf(s: State, filters: Metadata): Result<Option<real>, Error> {
    OptionalPrice(HasStopPrice(s), FirstTruthy(s, StopPriceKeys), "stop_price", filters)
  }

  /** Every stage of the normalisation accepts the resolved request `s`. */
  predicate StagesSucceed(s: State, filters: Metadata) {
    && NormalizeSymbol(SymbolField(s)).Success?
    && NormalizeSide(SideField(s)).Success?
    && QuantityOf(s, filters).Success?
    && PriceOf(s, filters).Success?
    && StopPriceOf(s, filters).Success?
  }

  /**
   * `out` carries the values the stages compute from `s`: the normalised
   * symbol and side, the filtered quantity, and the filtered prices exactly
   * when `s` has one.
   */
  predicate NormalizedFrom(out: State, s: State, filters: Metadata) {
    && StagesSucceed(s, filters)
    && "symbol" in out && out["symbol"] == Str(NormalizeSymbol(SymbolField(s)).value)
    && "side" in out && out["side"] == Str(NormalizeSide(SideField(s)).value)
    && "quantity" in out && out["quantity"] == Num(QuantityOf(s, filters).value)
    && (PriceOf(s, filters).value.Some? ==> "price" in out && out["price"] == Num(PriceOf(s, filters).value.value))
    && (PriceOf(s, filters).value.None? ==> "price" !in out)
    && (StopPriceOf(s, filters).value.Some? ==>
          "stop_price" in out && out["stop_price"] == Num(StopPriceOf(s, filters).value.value))
    && (StopPriceOf(s, filters).value.None? ==> "stop_price" !in out)
    && ("reduce_only" in out <==> "reduce_only" in s)
    && ("reduce_only" in s ==> out["reduce_only"] == Bool(Truthy(s["reduce_only"])))
  }

  /** Field `k` of `out`, when present, is a number acceptable as a price. */
  predicate PriceValid(out: State, k: string, filters: Metadata) {
    k in out ==> out[k].Num? && PriceOk(out[k].x, filters)
  }

  /**
   * The shape `validate` guarantees of its output: the normalised order
   * type, a trimmed upper-case symbol, a BUY/SELL side, a quantity and prices
   * that respect the exchange filters, a boolean `reduce_only`, and no price
   * synonym left without its canonical key.
   */
  predicate WellFormed(out: State, kind: string, filters: Metadata) {
    && "order_type" in out && out["order_type"] == Str(kind)
    && "symbol" in out && out["symbol"].Str? && Text.IsUpper(out["symbol"].s) && Text.IsTrimmed(out["symbol"].s)
    && "side" in out && out["side"] in {Str("BUY"), Str("SELL")}
    && "quantity" in out && out["quantity"].Num? && QuantityOk(out["quantity"].x, filters)
    && PriceValid(out, "price", filters) && PriceValid(out, "stop_price", filters)
    && ("reduce_only" in out ==> out["reduce_only"].Bool?)
    && (HasPrice(out) ==> "price" in out)
    && (HasStopPrice(out) ==> "stop_price" in out)
  }

  /** `out` keeps every key of `s`, copies the ones `validate` does not rewrite, and adds only normalised keys. */
  predicate Extends(out: State, s: State) {
    && (forall k :: k in s ==> k in out)
    && (forall k :: k in s && k !in NormalizedKeys ==> out[k] == s[k])
    && (forall k :: k in out ==> k in s || k in NormalizedKeys)
  }

  /** The part of `validate` after synonym resolution: symbol, side, quantity, prices and the merge. */
  function Normalize(s: State, kind: string, filters: Metadata): (r: Result<State, Error>)
    ensures r.Success? <==> StagesSucceed(s, filters)
    ensures r.Success? ==> WellFormed(r.value, kind, filters) && Extends(r.value, s)
    ensures r.Success? ==> NormalizedFrom(r.value, s, filters)
    ensures r.Failure? ==> !r.error.MissingField?
  {
    if !StagesSucceed(s, filters) then Failure(StageError(s, filters))
    else
      var symbol, side := NormalizeSymbol(SymbolField(s)).value, NormalizeSide(SideField(s)).value;
      var quantity := QuantityOf(s, filters).value;
      var price, stopPrice := PriceOf(s, filters).value, StopPriceOf(s, filters).value;
      Assembled(s, filters, kind, symbol, side, quantity, price, stopPrice);
      AssembledFrom(s, filters, kind);
      Success(Assemble(s, kind, symbol, side, quantity, price, stopPrice))
  }

  /** The error of the first stage, in `validate`'s order, that rejects `s`. */
  function StageError(s: State, filters: Metadata): (e: Error)
    requires !StagesSucceed(s, filters)
    ensures !e.MissingField?
  {
    if NormalizeSymbol(SymbolField(s)).Failure? then NormalizeSymbol(SymbolField(s)).error
    else if NormalizeSide(SideField(s)).Failure? then NormalizeSide(SideField(s)).error
    else if QuantityOf(s, filters).Failure? then QuantityOf(s, filters).error
    else if PriceOf(s, filters).Failure? then PriceOf(s, filters).error
    else StopPriceOf(s, filters).error
  }

  /** The merged request holds the value each stage computed. */
  lemma AssembledFrom(s: State, filters: Metadata, kind: string)
    requires StagesSucceed(s, filters)
    ensures NormalizedFrom(Assemble(s, kind, NormalizeSymbol(SymbolField(s)).value, NormalizeSide(SideField(s)).value,
                                    QuantityOf(s, filters).value, PriceOf(s, filters).value,
                                    StopPriceOf(s, filters).value), s, filters)
  {
    var symbol, side := NormalizeSymbol(SymbolField(s)).value, NormalizeSide(SideField(s)).value;
    var quantity := QuantityOf(s, filters).value;
    var price, stopPrice := PriceOf(s, filters).value, StopPriceOf(s, filters).value;
    AssembledFields(s, kind, symbol, side, quantity, price, stopPrice);
    AssembledPrices(s, kind, symbol, side, quantity, price, stopPrice);
    AssembledReduceOnly(s, kind, symbol, side, quantity, price, stopPrice);
    assert price.None? ==> "price" !in s;
    assert stopPrice.None? ==> "stop_price" !in s;
  }

  /**
   * `validate(state)` with the symbol's exchange filters given as an input.
   * The result is the request with its normalised fields rewritten and every
   * other key passed through.
   */
  function Validate(state: State, filters: Metadata): (r: Result<State, Error>)
    ensures r.Success? ==> OrderKind(state).Success?
    ensures r.Success? <==>
      && OrderKind(state).Success?
      && Resolve(state, RequiredFields(OrderKind(state).value), OrderKind(state).value).Success?
      && StagesSucceed(Resolve(state, RequiredFields(OrderKind(state).value), OrderKind(state).value).value, filters)
    ensures r.Success? ==>
      NormalizedFrom(r.value, Resolve(state, RequiredFields(OrderKind(state).value), OrderKind(state).value).value, filters)
    ensures r.Success? ==> WellFormed(r.value, OrderKind(state).value, filters)
    ensures r.Success? ==> forall f :: f in RequiredFields(OrderKind(state).value) ==> f in r.value
    ensures r.Success? ==> Extends(r.value, state)
    ensures r.Failure? && r.error.MissingField? ==>
      OrderKind(state).Success? && r.error.field in RequiredFields(OrderKind(state).value) &&
      !Available(state, r.error.field)
  {
    var kind :- OrderKind(state);
    var s :- Resolve(state, RequiredFields(kind), kind);
    var out :- Normalize(s, kind, filters);
    ExtendsResolved(out, s, state, RequiredFields(kind));
    Success(out)
  }

  /**
   * A request that carries its quantity under the canonical key is rejected
   * whenever its quantity is: not numeric, not positive, or below LOT_SIZE's
   * minimum. Synonym resolution never rewrites a quantity key that is present.
   */
  lemma QuantityFailureRejects(state: State, filters: Metadata)
    requires "quantity" in state && QuantityOf(state, filters).Failure?
    ensures Validate(state, filters).Failure?
  {
    if OrderKind(state).Success? {
      var kind := OrderKind(state).value;
      var resolved := Resolve(state, RequiredFields(kind), kind);
      if resolved.Success? {
        ResolvedKeepsQuantity(state, resolved.value, RequiredFields(kind), filters);
      }
    }
  }

  lemma ResolvedKeepsQuantity(state: State, s: State, required: seq<string>, filters: Metadata)
    requires "quantity" in state
    requires forall k :: k in state ==> k in s && s[k] == state[k]
    requires forall k :: k in s && k !in state ==> k in required
    requires forall f :: f in required ==> f in CanonicalFields
    ensures QuantityOf(s, filters) == QuantityOf(state, filters)
  {
    assert "qty" !in CanonicalFields && "amount" !in CanonicalFields;
    forall i | 0 <= i < |QuantityKeys|
      ensures Get(s, QuantityKeys[i]) == Get(state, QuantityKeys[i])
    {
    }
    FirstTruthyAgree(s, state, QuantityKeys);
  }

  /** `x or y or z` depends only on the values stored under its keys. */
  lemma {:induction false} FirstTruthyAgree(s: State, t: State, keys: seq<string>)
    requires |keys| > 0
    requires forall i :: 0 <= i < |keys| ==> Get(s, keys[i]) == Get(t, keys[i])
    ensures FirstTruthy(s, keys) == FirstTruthy(t, keys)
    decreases |keys|
  {
    if |keys| > 1 {
      assert forall i :: 0 <= i < |keys[1..]| ==> keys[1..][i] == keys[i + 1];
      FirstTruthyAgree(s, t, keys[1..]);
    }
  }

  /** Keys added by synonym resolution are canonical, hence normalised keys. */
  lemma ExtendsResolved(out: State, s: State, state: State, required: seq<string>)
    requires Extends(out, s)
    requires forall k :: k in state ==> k in s && s[k] == state[k]
    requires forall k :: k in s && k !in state ==> k in required
    requires forall f :: f in required ==> f in CanonicalFields
    ensures Extends(out, state)
  {
  }

  /**
   * The resolved request with the normalised entries written over it: the
   * `cleaned` dictionary of `validate` followed by its pass-through of every
   * other key.
   */
  function Assemble(s: State, kind: string, symbol: string, side: string, quantity: real,
                    price: Option<real>, stopPrice: Option<real>): (out: State)
  {
    var base := s["order_type" := Str(kind)]["symbol" := Str(symbol)]["side" := Str(side)]["quantity" := Num(quantity)];
    var withPrice := if price.Some? then base["price" := Num(price.value)] else base;
    var withStop := if stopPrice.Some? then withPrice["stop_price" := Num(stopPrice.value)] else withPrice;
    if "reduce_only" in s then withStop["reduce_only" := Bool(Truthy(s["reduce_only"]))] else withStop
  }

  /** The merged request has the shape `validate` promises when each normalised part has. */
  lemma Assembled(s: State, filters: Metadata, kind: string, symbol: string, side: string, quantity: real,
                  price: Option<real>, stopPrice: Option<real>)
    requires Text.IsUpper(symbol) && Text.IsTrimmed(symbol)
    requires side == "BUY" || side == "SELL"
    requires QuantityOk(quantity, filters)
    requires price.Some? <==> HasPrice(s)
    requires stopPrice.Some? <==> HasStopPrice(s)
    requires price.Some? ==> PriceOk(price.value, filters)
    requires stopPrice.Some? ==> PriceOk(stopPrice.value, filters)
    ensures WellFormed(Assemble(s, kind, symbol, side, quantity, price, stopPrice), kind, filters)
    ensures Extends(Assemble(s, kind, symbol, side, quantity, price, stopPrice), s)
  {
    var out := Assemble(s, kind, symbol, side, quantity, price, stopPrice);
    AssembledFields(s, kind, symbol, side, quantity, price, stopPrice);
    AssembledPrices(s, kind, symbol, side, quantity, price, stopPrice);
    AssembledExtends(s, kind, symbol, side, quantity, price, stopPrice);
    SynonymsNotNormalized();
  }

  /** The price synonyms are not among the keys `validate` writes. */
  lemma SynonymsNotNormalized()
    ensures "limit_price" !in NormalizedKeys && "stopPrice" !in NormalizedKeys && "stop" !in NormalizedKeys
  {
  }

  lemma AssembledFields(s: State, kind: string, symbol: string, side: string, quantity: real,
                        price: Option<real>, stopPrice: Option<real>)
    ensures var out := Assemble(s, kind, symbol, side, quantity, price, stopPrice);
      && out["order_type"] == Str(kind) && out["symbol"] == Str(symbol) && out["side"] == Str(side)
      && out["quantity"] == Num(quantity)
      && ("reduce_only" in out ==> out["reduce_only"].Bool?)
  {
    KeysDistinct();
  }

  lemma AssembledExtends(s: State, kind: string, symbol: string, side: string, quantity: real,
                         price: Option<real>, stopPrice: Option<real>)
    ensures Extends(Assemble(s, kind, symbol, side, quantity, price, stopPrice), s)
  {
    KeysDistinct();
  }

  lemma AssembledReduceOnly(s: State, kind: string, symbol: string, side: string, quantity: real,
                            price: Option<real>, stopPrice: Option<real>)
    ensures var out := Assemble(s, kind, symbol, side, quantity, price, stopPrice);
      && ("reduce_only" in out <==> "reduce_only" in s)
      && ("reduce_only" in s ==> out["reduce_only"] == Bool(Truthy(s["reduce_only"])))
  {
    KeysDistinct();
  }

  lemma AssembledPrices(s: State, kind: string, symbol: string, side: string, quantity: real,
                        price: Option<real>, stopPrice: Option<real>)
    ensures var out := Assemble(s, kind, symbol, side, quantity, price, stopPrice);
      && (price.Some? ==> "price" in out && out["price"] == Num(price.value))
      && (stopPrice.Some? ==> "stop_price" in out && out["stop_price"] == Num(stopPrice.value))
      && (price.None? ==> ("price" in out <==> "price" in s))
      && (stopPrice.None? ==> ("stop_price" in out <==> "stop_price" in s))
  {
    KeysDistinct();
  }

  lemma KeysDistinct()
    ensures "order_type" != "symbol" && "order_type" != "side" && "order_type" != "quantity"
    ensures "order_type" != "price" && "order_type" != "stop_price" && "order_type" != "reduce_only"
    ensures "symbol" != "side" && "symbol" != "quantity" && "symbol" != "price"
    ensures "symbol" != "stop_price" && "symbol" != "reduce_only"
    ensures "side" != "quantity" && "side" != "price" && "side" != "stop_price" && "side" != "reduce_only"
    ensures "quantity" != "price" && "quantity" != "stop_price" && "quantity" != "reduce_only"
    ensures "price" != "stop_price" && "price" != "reduce_only" && "stop_price" != "reduce_only"
  {
  }

  /** `_normalize_side` accepts its own output and returns it unchanged. */
  lemma NormalizeSideIdempotent(v: Value)
    requires NormalizeSide(v).Success?
    ensures NormalizeSide(Str(NormalizeSide(v).value)) == NormalizeSide(v)
  {
    SideOfNormal(NormalizeSide(v).value);
  }

  /** BUY and SELL are their own normal forms. */
  lemma SideOfNormal(side: string)
    requires side == "BUY" || side == "SELL"
    ensures NormalizeSide(Str(side)) == Success(side)
  {
    NormalSideText(side);
    SideOfText(side);
  }

  lemma SideOfText(s: string)
    requires Text.Upper(Text.Strip(s)) == "BUY" || Text.Upper(Text.Strip(s)) == "SELL"
    ensures NormalizeSide(Str(s)) == Success(Text.Upper(Text.Strip(s)))
  {
  }

  lemma NormalSideText(side: string)
    requires side == "BUY" || side == "SELL"
    ensures Text.Upper(Text.Strip(side)) == side
  {
    assert forall i :: 0 <= i < |side| ==> 'A' <= side[i] <= 'Z';
    Text.NormalUpperFixed(side);
  }

  /**
   * A symbol text with a non-blank character normalises to a non-empty
   * symbol, which `_normalize_symbol` then returns unchanged.
   */
  lemma NormalizeSymbolIdempotent(v: Value)
    requires v.Str? && exists i :: 0 <= i < |v.s| && !Text.IsSpace(v.s[i])
    ensures NormalizeSymbol(v).Success? && NormalizeSymbol(v).value != []
    ensures NormalizeSymbol(Str(NormalizeSymbol(v).value)) == NormalizeSymbol(v)
  {
    Text.StripNonBlank(v.s);
    SymbolOfText(v.s);
    var symbol := Text.Upper(Text.Strip(v.s));
    Text.NormalUpperFixed(symbol);
    SymbolOfText(symbol);
  }

  lemma SymbolOfText(s: string)
    requires |s| > 0
    ensures NormalizeSymbol(Str(s)) == Success(Text.Upper(Text.Strip(s)))
  {
  }

  /**
   * A whitespace-only symbol passes the emptiness check and normalises to the
   * empty text, which a second pass then rejects as missing.
   */
  lemma BlankSymbolAccepted()
    ensures NormalizeSymbol(Str(" ")) == Success("")
    ensures NormalizeSymbol(Str("")) == Failure(MissingSymbol)
  {
    assert Text.Strip(" ") == [];
  }

  /** Validation fails on a missing field exactly when some required field has neither its key nor a synonym. */
  lemma MissingFieldExactly(state: State, filters: Metadata)
    requires OrderKind(state).Success?
    ensures (Validate(state, filters).Failure? && Validate(state, filters).error.MissingField?) <==>
      exists f :: f in RequiredFields(OrderKind(state).value) && !Available(state, f)
  {
    var kind := OrderKind(state).value;
    var r := Resolve(state, RequiredFields(kind), kind);
    if r.Failure? {
      assert Validate(state, filters) == Failure(r.error);
    }
  }

  /** A request holding every required field under its canonical key needs no synonym resolution. */
  lemma {:induction false} ResolveComplete(s: State, required: seq<string>, orderType: string)
    requires forall f :: f in required ==> f in CanonicalFields && f in s
    ensures Resolve(s, required, orderType) == Success(s)
    decreases |required|
  {
    if |required| > 0 {
      ResolveComplete(s, required[1..], orderType);
    }
  }

  /** `x or y or z` over a request whose first key holds a truthy value is that value. */
  lemma FirstTruthyHead(s: State, keys: seq<string>)
    requires |keys| > 0 && keys[0] in s && Truthy(s[keys[0]])
    ensures FirstTruthy(s, keys) == s[keys[0]]
  {
  }

  /** The normalisation stage leaves a well-formed request with a non-empty symbol as it is. */
  lemma NormalizeSettled(out: State, kind: string, filters: Metadata)
    requires WellFormed(out, kind, filters) && Conforming(filters) && out["symbol"].s != []
    ensures Normalize(out, kind, filters) == Success(out)
  {
    var symbol, side := out["symbol"].s, out["side"].s;
    SymbolSettled(out);
    SideSettled(out);
    QuantitySettled(out, filters);
    var price := if "price" in out then Some(out["price"].x) else None;
    var stopPrice := if "stop_price" in out then Some(out["stop_price"].x) else None;
    PricesSettled(out, filters);
    AssembleSettled(out, kind, symbol, side, out["quantity"].x, price, stopPrice);
  }

  lemma SymbolSettled(out: State)
    requires "symbol" in out && out["symbol"].Str? && out["symbol"].s != []
    requires Text.IsUpper(out["symbol"].s) && Text.IsTrimmed(out["symbol"].s)
    ensures NormalizeSymbol(SymbolField(out)) == Success(out["symbol"].s)
  {
    var symbol := out["symbol"].s;
    assert SymbolField(out) == Str(symbol);
    Text.NormalUpperFixed(symbol);
  }

  lemma SideSettled(out: State)
    requires "side" in out && out["side"] in {Str("BUY"), Str("SELL")}
    ensures NormalizeSide(SideField(out)) == Success(out["side"].s)
  {
    SideOfNormal(out["side"].s);
  }

  lemma QuantitySettled(out: State, filters: Metadata)
    requires "quantity" in out && out["quantity"].Num? && QuantityOk(out["quantity"].x, filters)
    requires Conforming(filters)
    ensures QuantityOf(out, filters) == Success(out["quantity"].x)
  {
    FirstTruthyHead(out, QuantityKeys);
  }

  lemma PricesSettled(out: State, filters: Metadata)
    requires PriceValid(out, "price", filters) && PriceValid(out, "stop_price", filters)
    requires (HasPrice(out) ==> "price" in out) && (HasStopPrice(out) ==> "stop_price" in out)
    requires Conforming(filters)
    ensures PriceOf(out, filters) == Success(if "price" in out then Some(out["price"].x) else None)
    ensures StopPriceOf(out, filters) == Success(if "stop_price" in out then Some(out["stop_price"].x) else None)
  {
    if "price" in out {
      FirstTruthyHead(out, PriceKeys);
    }
    if "stop_price" in out {
      FirstTruthyHead(out, StopPriceKeys);
    }
  }

  /** A normalised order type is read back as itself. */
  lemma OrderKindSettled(out: State, kind: string)
    requires "order_type" in out && out["order_type"] == Str(kind) && kind != []
    requires Text.IsLower(kind) && Text.IsTrimmed(kind)
    ensures OrderKind(out) == Success(kind)
  {
    Text.NormalLowerFixed(kind);
  }

  /** Writing back the values a request already holds changes nothing. */
  lemma AssembleSettled(out: State, kind: string, symbol: string, side: string, quantity: real,
                        price: Option<real>, stopPrice: Option<real>)
    requires "order_type" in out && out["order_type"] == Str(kind)
    requires "symbol" in out && out["symbol"] == Str(symbol)
    requires "side" in out && out["side"] == Str(side)
    requires "quantity" in out && out["quantity"] == Num(quantity)
    requires price.Some? ==> "price" in out && out["price"] == Num(price.value)
    requires stopPrice.Some? ==> "stop_price" in out && out["stop_price"] == Num(stopPrice.value)
    requires "reduce_only" in out ==> out["reduce_only"].Bool?
    ensures Assemble(out, kind, symbol, side, quantity, price, stopPrice) == out
  {
  }

  /**
   * Validating a validated request again gives the same request, provided
   * the metadata conforms and neither the order type nor the symbol
   * normalised to the empty text.
   */
  lemma ValidateIdempotent(state: State, filters: Metadata)
    requires Conforming(filters)
    requires Validate(state, filters).Success?
    requires Validate(state, filters).value["order_type"] != Str("")
    requires Validate(state, filters).value["symbol"] != Str("")
    ensures Validate(Validate(state, filters).value, filters) == Validate(state, filters)
  {
    var out := Validate(state, filters).value;
    var kind := OrderKind(state).value;
    ValidatedIsFixedPoint(out, kind, filters);
  }

  /**
   * A request already in the shape `validate` produces, holding every field
   * its order type requires, validates to itself.
   */
  lemma ValidatedIsFixedPoint(out: State, kind: string, filters: Metadata)
    requires Conforming(filters)
    requires WellFormed(out, kind, filters) && kind != [] && Text.IsLower(kind) && Text.IsTrimmed(kind)
    requires out["symbol"].s != []
    requires forall f :: f in RequiredFor(kind) ==> f in out
    ensures Validate(out, filters) == Success(out)
  {
    OrderKindSettled(out, kind);
    ResolveComplete(out, RequiredFields(kind), kind);
    NormalizeSettled(out, kind, filters);
  }
}

=== FILE: values.dfy ===
/**
 * The Python values that flow through the order state dictionary, with the
 * three Python behaviours the pipeline relies on: truthiness (`a or b`),
 * `dict.get`, and the `float()` / `int()` conversions.
 */
module Values {
  import opened Results
  import Decimal

  datatype Value =
    | Null                      // None
    | Bool(b: bool)
    | Num(x: real)              // an int or float, as an exact real
    | Str(s: string)
    | Client                    // the exchange client object
    | Object(truthy: bool)      // any other object (a list, a dict, ...), with its truth value

  type State = map<string, Value>

  /** `bool(v)` */
  predicate Truthy(v: Value) {
    match v
    case Null => false
    case Bool(b) => b
    case Num(x) => x != 0.0
    case Str(s) => |s| > 0
    case Client => true
    case Object(t) => t
  }

  /** `a or b`: the first operand when it is truthy, otherwise the second. */
  function Or(a: Value, b: Value): Value {
    if Truthy(a) then a else b
  }

  /** `m.get(k)` */
  function Get(m: State, k: string): Value {
    if k in m then m[k] else Null
  }

  /** Python's `int(x)` on a float: truncation toward zero. */
  function Trunc(x: real): (n: int)
    ensures x >= 0.0 ==> 0.0 <= n as real <= x < n as real + 1.0
    ensures x < 0.0 ==> n as real - 1.0 < x <= n as real <= 0.0
  {
    if x >= 0.0 then x.Floor else -((-x).Floor)
  }

  /** `float(v)`, `None` where Python raises. */
  function ToFloat(v: Value): Option<real> {
    match v
    case Num(x) => Some(x)
    case Bool(b) => Some(if b then 1.0 else 0.0)
    case Str(s) => Decimal.ParseFloat(s)
    case _ => None
  }

  /** `int(v)`, `None` where Python raises. */
  function ToInt(v: Value): Option<int> {
    match v
    case Num(x) => Some(Trunc(x))
    case Bool(b) => Some(if b then 1 else 0)
    case Str(s) => Decimal.ParseInt(s)
    case _ => None
  }

  /** `a or b` never yields a falsy first operand over a truthy second one. */
  lemma OrPicksTruthy(a: Value, b: Value)
    ensures Truthy(Or(a, b)) <==> Truthy(a) || Truthy(b)
    ensures Or(a, b) == a || Or(a, b) == b
  {
  }

  /** A number is its own `float`, and an integral number its own `int`. */
  lemma ConversionsFixNumbers(x: real, n: int)
    ensures ToFloat(Num(x)) == Some(x)
    ensures ToInt(Num(n as real)) == Some(n)
  {
  }
}
